=== FILE: README.md ===
# Truck fleet teams: a model of the team, user and role aggregates

This project models the store logic of a small truck-fleet web service. Users
own teams. A team has drivers, which are links from the team to user ids, and
cars, which are number plates. Users hold roles (`ADMIN`, `DRIVER`, `OWNER`).
The HTTP layer is thin, so the behaviour that matters is which rows of the
relational store exist after each call.

The store is an immutable record of seven row sequences, one per table:
`team`, `team_driver`, `team_car`, `billing`, `billing_item`, `user` and
`role` (module `Store`). Every service method is a pure function from a store
and its inputs to a result and the store it leaves (`Effect`). Three things
the code gets from outside are inputs of the model:

- **UUID parsing and printing** are function parameters (`UuidParser`, `UuidPrinter`).
- **Generated ids** (`Uuid::new_v4()`) are parameters.
- **Store failures** are an optional `Fault(step, err)`: the statement with index `step`
  within the call fails with `err`, and every other statement succeeds.

Primary keys are enforced. An insert whose key is taken fails with
`DuplicateKey` rather than being excluded by a precondition. The fault model
is what shows that `Team::delete` is not all-or-nothing.

Modules:

- `Rows`: filtered scans (`Select`), filtered deletes (`Reject`), first match (`IndexOf`),
  key uniqueness, and their lemmas.
- `ActiveEnums`: the stored enums.
- `TeamService` and `TeamProperties`: the team aggregate.
- `TeamController` and `TeamControllerProperties`: the store logic of the team routes.
- `RoleService`: the API role type and the role aggregate.
- `UserService` and `UserProperties`: the user aggregate.

The cascading team delete is meant to be all-or-nothing: `Team::delete`
opens a transaction (src/team_service/service.rs:204) and commits it
(line 218). But every delete runs on the plain connection `db` (lines 207,
211, 215 and 217), not on the transaction, so the statements before a
failing one stay applied. The model follows the code, and
`TeamProperties.DeleteStopsPartWay` exhibits such a state.

## Model

| member | source | states |
|---|---|---|
| ActiveEnums.ItemValue | src/entities/sea_orm_active_enums.rs:5-12 | each item type is stored as `BASIC` or `COUSTOM`, and `Basic` exactly as `BASIC` |
| ActiveEnums.ItemFromValue | src/entities/sea_orm_active_enums.rs:5-12 | a stored string decodes exactly when it is one of the two item values, and decodes to the type that stores as it |
| ActiveEnums.RoleValue | src/entities/sea_orm_active_enums.rs:13-22 | `Admin` is stored as `ADMIN`, `Driver` as `DRIVER` and `Owner` as `OWNER`, and no other string is a stored role |
| ActiveEnums.RoleFromValue | src/entities/sea_orm_active_enums.rs:13-22 | a stored string decodes exactly when it is one of the three role values, and decodes to the role that stores as it |
| ActiveEnums.ItemValueRoundTrip | src/entities/sea_orm_active_enums.rs:5-12 | decoding the stored value of an item type gives it back, and no two item types share a stored value |
| ActiveEnums.RoleValueRoundTrip | src/entities/sea_orm_active_enums.rs:13-22 | decoding the stored value of a role gives it back, and no two roles share a stored value |
| ActiveEnums.StoredValueSets | src/entities/sea_orm_active_enums.rs:5-22 | the role values are exactly three distinct strings and the item values exactly two |
| Store.Insert | src/team_service/service.rs:104-110 | an insert fails with the injected error, fails with `DuplicateKey` when the key is taken, and otherwise appends exactly the row |
| TeamService.FromDbErr | src/team_service/service.rs:23-27 | a store error becomes `DbError` carrying that same error |
| TeamService.FromDbErrInjective | src/team_service/service.rs:23-27 | two store errors convert alike exactly when they are the same error |
| TeamService.Fail | src/team_service/service.rs:23-27 | the `?` on a raised store error fails with `DbError` of that error |
| TeamService.FromId | src/team_service/service.rs:77-98 | a team resolves iff its id parses, the lookup succeeds and a row has that id; the result carries the parsed id and the fields of a stored row; every failure is `QueryTeamError` with the original string |
| TeamService.AddDriver | src/team_service/service.rs:101-112 | succeeds iff the insert raises nothing and the new id is free; success appends exactly `{newId, userId, team.id}` and changes no other table; failure is `DbError` and changes nothing |
| TeamService.AddCar | src/team_service/service.rs:115-126 | succeeds iff the insert raises nothing and the new id is free; success appends exactly `{newId, plate, team.id}`; failure is `DbError` and changes nothing |
| TeamService.DeleteDriver | src/team_service/service.rs:129-143 | succeeds iff the lookup succeeds and, when a link for (team, user) exists, its delete succeeds; with such a link a success shrinks `team_driver`; with no such link the result is `Ok` and the store is unchanged; a failure changes nothing; only the `team_driver` table can change, and only when such a link exists |
| TeamService.DeleteCar | src/team_service/service.rs:146-161 | a car id that does not parse is `UuidError` with the store unchanged; succeeds iff the id parses, the lookup succeeds and, when this team has a car with that id, its delete succeeds; after a success this team has no car with that id and every car row with another id remains; with no such car the result is `Ok` and the store is unchanged; a failure changes nothing; only `team_car` can change |
| TeamService.GetDrivers | src/team_service/service.rs:164-180 | fails iff the scan fails; the i-th listed user is the user of the i-th link of the team in table order, so duplicate links are listed as often as they occur; every linked user appears, and every listed user is linked to the team |
| TeamService.GetCars | src/team_service/service.rs:183-200 | fails iff the scan fails; the i-th entry is the id and plate of the i-th car of the team in table order; every car appears with its plate, and every entry is a stored car of the team |
| TeamService.Delete | src/team_service/service.rs:202-220 | succeeds iff none of its six statements fails; on success no car, driver link, billing or team row of the team remains, and every such row of another team remains; `billing_item`, `user` and `role` are never touched |
| TeamProperties.FromIdCopiesRow | src/team_service/service.rs:79-87 | with unique team ids, a stored row whose id the string parses to is resolved field by field |
| TeamProperties.AddDriverThenGetDrivers | src/team_service/service.rs:101-112 | after a successful `add_driver` the team's drivers are the old list with the new user at its end, and every other team's list is unchanged |
| TeamProperties.AddCarThenGetCars | src/team_service/service.rs:115-126 | after a successful `add_car` the team's cars are the old list with the new car at its end, and every other team's list is unchanged |
| TeamProperties.AddKeepsValid | src/team_service/service.rs:101-126 | adding a driver or a car keeps every primary key unique |
| TeamProperties.DeleteDriverRemovesFirstLink | src/team_service/service.rs:129-143 | with unique keys, a successful `delete_driver` removes exactly the first matching link: the table loses that one row, and any duplicate links for the same pair remain |
| TeamProperties.DeleteCarRemovesLink | src/team_service/service.rs:146-161 | with unique keys, a successful `delete_car` of a car of this team removes exactly that row, and no row with its id remains |
| TeamProperties.DeleteLinkKeepsValid | src/team_service/service.rs:129-161 | removing a driver or a car keeps every primary key unique |
| TeamProperties.DeleteRemovesExactlyTeamRows | src/team_service/service.rs:205-217 | a successful delete removes from each of the four tables exactly the team's rows (as multisets), and the rows of every other team are unchanged |
| TeamProperties.DeleteThenResolve | src/team_service/service.rs:202-220 | after a successful delete the team id no longer resolves, and the team lists no drivers and no cars |
| TeamProperties.DeleteKeepsValid | src/team_service/service.rs:202-220 | the delete keeps every primary key unique, whichever statement fails |
| TeamProperties.DeleteStopsPartWay | src/team_service/service.rs:204-217 | when the billing delete fails, the team's cars and driver links are already gone while its team and billing rows remain |
| TeamController.ToDto | src/team_service/controller.rs:45-52 | the DTO carries the row's team name and its id as printed |
| TeamController.CreateTeam | src/team_service/controller.rs:186-205 | a name over 128 characters is refused; otherwise the route answers `Ok` iff the insert raises nothing and the id is free, and then appends exactly `{newId, name, user}`; any other answer leaves the store unchanged |
| TeamController.UpdateTeam | src/team_service/controller.rs:207-238 | a team name over 128 characters is refused (the team id has no validator); an unparsable id or a missing team is `Error`; all three leave the store unchanged; `Ok` iff the id parses, the team exists and neither statement fails; on `Ok` only the name of that team changes, its id and owner and all other rows stay |
| TeamController.DeleteTeam | src/team_service/controller.rs:240-260 | an over-long id is refused and an unresolved team is `Error`, both with the store unchanged; `Ok` iff the id fits, the team resolves and none of the six delete statements fails; on `Ok` no team, car, driver-link or billing row of the team remains; `billing_item`, `user` and `role` are never touched |
| TeamController.QueryTeam | src/team_service/controller.rs:263-285 | fails iff the scan fails; the i-th DTO is that of the i-th team the user owns, in table order; every such team appears with its name and printed id, and every DTO is of a team the user owns |
| TeamController.DtosCover | src/team_service/controller.rs:45-51 | the converted rows of a user's teams are exactly the DTOs of the rows that user owns |
| TeamController.TeamDeleteUser | src/team_service/controller.rs:287-303 | an over-long user id is refused and an unresolved team is `Error`, both with the store unchanged; `Ok` iff the id fits, the team resolves, the link lookup succeeds and, when the team has a link for the user, its delete succeeds; `Ok` with such a link shrinks `team_driver`; only `team_driver` can change |
| TeamController.TeamAddUser | src/team_service/controller.rs:305-321 | an over-long user id is refused and an unresolved team is `Error`, both with the store unchanged; `Ok` iff the id fits, the team resolves, the insert raises nothing and the new link id is free; `Ok` appends exactly one link to the parsed team |
| TeamController.TeamGetUser | src/team_service/controller.rs:323-339 | `Error` when the team does not resolve; `Ok` iff it resolves and the scan succeeds, and then the i-th entry is the user of the i-th link of the team, in table order and with duplicates; every linked user appears and every entry is linked |
| TeamController.TeamAddCar | src/team_service/controller.rs:341-361 | an over-long plate is refused and an unresolved team is `Error`, both with the store unchanged; `Ok` iff the plate fits, the team resolves, the insert raises nothing and the new car id is free; `Ok` appends exactly one car to the parsed team |
| TeamController.TeamDeleteCar | src/team_service/controller.rs:363-379 | an over-long car id is refused, and an unresolved team or an unparsable car id is `Error`, all with the store unchanged; `Ok` iff the id fits, the team resolves, the car id parses, the lookup succeeds and, when the team has that car, its delete succeeds; after `Ok` the team has no car with that id; only `team_car` can change |
| TeamController.TeamGetCar | src/team_service/controller.rs:381-397 | `Error` when the team does not resolve; `Ok` iff it resolves and the scan succeeds, and then the i-th entry is the printed id and plate of the i-th car of the team in table order; every car appears and every entry is a car of the team |
| TeamController.CarEntitiesCover | src/team_service/controller.rs:384-390 | printing the cars found reaches every car of the team and nothing else |
| TeamControllerProperties.TeamAddUserThenDeleteUser | src/team_service/controller.rs:287-321 | when the team has no link for the user, `team_delete_user` right after `team_add_user` answers `Ok` and gives back the original store |
| TeamControllerProperties.TeamAddCarThenDeleteCar | src/team_service/controller.rs:341-379 | `team_delete_car` with the new car's id right after `team_add_car` answers `Ok` and gives back the original store |
| TeamControllerProperties.CreateTeamThenQuery | src/team_service/controller.rs:186-285 | after `create_team` the owner's list is the old list with the new team's DTO at its end |
| TeamControllerProperties.CreateTeamThenQueryOther | src/team_service/controller.rs:186-285 | `create_team` leaves every other user's team list unchanged |
| TeamControllerProperties.UpdateTeamThenResolve | src/team_service/controller.rs:207-238 | after a successful rename the team resolves with the new name and its old id and owner |
| TeamControllerProperties.UpdateTeamKeepsValid | src/team_service/controller.rs:227-235 | renaming keeps every primary key unique |
| TeamControllerProperties.CreateTeamKeepsValid | src/team_service/controller.rs:194-200 | creating a team keeps every primary key unique |
| TeamControllerProperties.QueryThenUpdate | src/team_service/controller.rs:207-285 | when printing and parsing agree on UUIDs, a DTO listed by `query_team`, given a new name, is accepted by `update_team` |
| TeamControllerProperties.UpdateTeamIgnoresPathUser | src/team_service/controller.rs:207-212 | the path user plays no part in `update_team`: any user may rename any team |
| TeamControllerProperties.DeleteTeamThenRoutes | src/team_service/controller.rs:240-397 | after a successful `delete_team` the team no longer resolves, and the get routes on it answer `Error` |
| TeamControllerProperties.DeleteTeamKeepsValid | src/team_service/controller.rs:240-260 | `delete_team` keeps every primary key unique |
| TeamControllerProperties.SetUpSucceeds | src/team_service/controller.rs:186-361 | creating a fresh team and adding a driver and a car through its printed id all succeed, and each appends exactly its row |
| TeamControllerProperties.FreshTeamResolves | src/team_service/service.rs:77-98 | a freshly created team resolves to exactly its own fields |
| TeamControllerProperties.TeamLifecycle | src/team_service/controller.rs:186-397 | a fresh team with one driver and one car lists exactly that driver and that car; deleting it succeeds, after which it no longer resolves |
| RoleService.IntoRoleType | src/role_service/service.rs:29-38 | `Admin` and `Owner` map to their namesakes, and exactly `Driver` and `None` map to `Driver` |
| RoleService.FromRoleType | src/role_service/service.rs:40-48 | each stored role maps to its namesake and never to `None` |
| RoleService.FromStr | src/role_service/service.rs:50-61 | parsing never fails; exactly `Admin`, `Owner` and `Driver`, with that capitalisation, give their roles; every other string gives `None` |
| RoleService.DefaultFromUserId | src/role_service/service.rs:72-78 | the default role is `Driver` for the given user, with the generated id, and is stored as `Driver` |
| RoleService.Save | src/role_service/service.rs:81-91 | succeeds iff the insert raises nothing and the id is free; success appends exactly `{id, userId, stored type}` and returns the aggregate's id; failure changes nothing |
| RoleService.StoredRoundTrip | src/role_service/service.rs:29-48 | a stored role converted to the API type and back is unchanged |
| RoleService.ApiRoundTrip | src/role_service/service.rs:29-48 | an API role converted to the stored type and back is unchanged, except `None`, which comes back as `Driver` |
| RoleService.IntoRoleTypeNotInjective | src/role_service/service.rs:29-38 | `None` and `Driver` are stored alike |
| RoleService.FromStrCaseSensitive | src/role_service/service.rs:50-61 | the upper-case names `ADMIN`, `DRIVER`, `OWNER` parse to `None` |
| RoleService.FromStrThenStore | src/role_service/service.rs:29-61 | a parsed string is stored as `Driver` exactly when it is neither `Admin` nor `Owner` |
| UserService.FromDbErr | src/user_service/service.rs:34-38 | every store error becomes the same `DbError` |
| UserService.RoleName | src/user_service/service.rs:40-48 | `Admin`, `Driver` and `Owner` print as `ADMIN`, `DRIVER` and `OWNER`, which is their stored value, and each name decodes back to its role |
| UserService.FromUserId | src/user_service/service.rs:59-72 | a failed lookup is `DbError`; a missing user is `EmptyUserError`; success iff the lookup succeeds and the user exists, and then the aggregate has the asked id and the fields of a stored row |
| UserService.CreateUser | src/user_service/service.rs:75-88 | succeeds iff both inserts raise nothing and both ids are free, and then appends exactly the user row and one `Driver` role row and returns the user id; a failed user insert changes nothing; a failed role insert (injected error or taken role id) leaves exactly the user row appended; the role table changes only on success |
| UserService.GetUserRole | src/user_service/service.rs:91-102 | fails iff the scan fails; the i-th name is the printed type of the i-th role row of the user in table order, duplicates kept; the list is empty exactly when the user has none, and every role the user holds appears |
| UserProperties.FromDbErrLossy | src/user_service/service.rs:34-38 | the conversion to `UserError` forgets the store error: a duplicate key and a backend failure become the same `DbError` |
| UserProperties.RoleNameInjective | src/user_service/service.rs:40-48 | two roles with the same printed name are the same role |
| UserProperties.RoleNameNotParsed | src/user_service/service.rs:40-48 | the printed name of every role parses to `None` under `FromStr for UserRoleType` |
| UserProperties.CreateUserThenRead | src/user_service/service.rs:59-102 | after a successful `create_user` the user resolves to exactly the saved aggregate, and its role list is the old list with `DRIVER` at its end |
| UserProperties.CreateUserDefaultRole | src/user_service/service.rs:75-102 | a user created without earlier role rows holds exactly the role list `["DRIVER"]` |
| UserProperties.CreateUserRoleFails | src/user_service/service.rs:82-86 | when the role insert fails after the user insert, the error is `DbError`, the user row is kept and no role row is added |
| UserProperties.CreateUserKeepsValid | src/user_service/service.rs:75-88 | creating a user keeps every primary key unique |

## Left out

- Billing (src/billing_service/service.rs, src/billing_service/controller.rs): the service is
  a stub (`todo!()`), and the controller calls methods that do not exist. The `billing` and
  `billing_item` tables appear only as rows that the team delete removes or leaves.
- The role and user controllers (src/role_service/controller.rs, src/user_service/controller.rs)
  are HTTP wrappers. The role controller calls a service method that is not part of the code.
  The user controller's `create` inserts a user without a role. For that reason the model
  states no invariant that every user has a role.
- src/main.rs: process start-up, the global connection handle, server and tracing set-up.
- The entity files carry no behaviour. Only their row shapes are used. `Decimal` costs and
  `DateTime` values are opaque carriers.
- `ItemType` is modelled with its stored values, but no modelled operation uses it.
- Foreign keys are not modelled. A store that rejects a statement for such a reason is an
  injected `Fault`. The entity relations are declared with `on_delete = "NoAction"`:
  `billing_item` rows reference `billing` (src/entities/billing_item.rs:19-26), and `item` rows
  (src/entities/item.rs:19-26) and `car` rows (src/entities/car.rs:15-23) reference `team`. So
  deleting a team that has billing items fails at the billing delete (statement 3), and one that
  still has items or `car` rows fails at the team delete (statement 4). The `item` and `car`
  tables are not part of the store. `DeleteStopsPartWay` is the state the
  first case leaves. With those keys enforced, a successful delete cannot orphan `billing_item`
  rows. The model does not enforce them, so it does not promise this.
- Transactions are not modelled, because the code's delete does not use its transaction. Its
  begin (statement 0) and commit (statement 5) are statements that can fail and do nothing else.
- `delete_driver` and `delete_car` take a row with `.one()`, which names no order. The model
  takes the first match in table order. Lookups by primary key (`Team::from_id`,
  `update_team`, `from_user_id`) also take the first row with the key, which in a store with
  unique keys is the only one.
- UUID parsing, printing and generation are parameters. The lemmas that need printing and
  parsing to agree (`QueryThenUpdate`, `TeamLifecycle`) assume it.
- Response status codes, JSON and OpenAPI shapes, logging and `async` are left out. The
  `UuidError` and `DbError` payloads of `TeamError` are reduced to the store error, or to
  nothing for `UuidError`.
- The length validators count characters, as `seq<char>` length. A request they refuse is the
  `Invalid` reply.
- TeamService.DeleteDriver: its own contract says that a success with a matching link shrinks
  the table, but not which link is removed. That is stated by
  `TeamProperties.DeleteDriverRemovesFirstLink` under unique keys.
- TeamController.TeamDeleteUser: its contract does not say which link is removed. That is
  stated for the service call by `TeamProperties.DeleteDriverRemovesFirstLink` under unique keys.
- TeamController.TeamDeleteCar: its contract does not say exactly which rows remain. That is
  stated for the service call by `TeamService.DeleteCar` and `TeamProperties.DeleteCarRemovesLink`.

=== FILE: active_enums.dfy ===
/** The two database enums (`item_type` and `role_type`) and the string each
    variant is stored as. */
module ActiveEnums {
  import opened Wrappers

  datatype ItemType = Basic | Coustom

  datatype RoleType = Admin | Driver | Owner

  /** The string an `ItemType` is stored as. The spelling `COUSTOM` is the
      one the schema uses. */
  function ItemValue(t: ItemType): (v: string)
    ensures v == "BASIC" || v == "COUSTOM"
    ensures t.Basic? <==> v == "BASIC"
  {
    match t
    case Basic => "BASIC"
    case Coustom => "COUSTOM"
  }

  /** Reading an `ItemType` back from its stored string; any other string
      is not a value of the enum. */
  function ItemFromValue(v: string): (r: Option<ItemType>)
    ensures r.Some? <==> v == "BASIC" || v == "COUSTOM"
    ensures r.Some? ==> ItemValue(r.value) == v
  {
    if v == "BASIC" then Some(Basic)
    else if v == "COUSTOM" then Some(Coustom)
    else None
  }

  /** The string a `RoleType` is stored as. */
  function RoleValue(t: RoleType): (v: string)
    ensures v == "ADMIN" || v == "DRIVER" || v == "OWNER"
    ensures t.Admin? <==> v == "ADMIN"
    ensures t.Driver? <==> v == "DRIVER"
    ensures t.Owner? <==> v == "OWNER"
  {
    match t
    case Admin => "ADMIN"
    case Driver => "DRIVER"
    case Owner => "OWNER"
  }

  /** Reading a `RoleType` back from its stored string. */
  function RoleFromValue(v: string): (r: Option<RoleType>)
    ensures r.Some? <==> v == "ADMIN" || v == "DRIVER" || v == "OWNER"
    ensures r.Some? ==> RoleValue(r.value) == v
  {
    if v == "ADMIN" then Some(Admin)
    else if v == "DRIVER" then Some(Driver)
    else if v == "OWNER" then Some(Owner)
    else None
  }

  /** Each `ItemType` is read back from its stored string, so the two
      stored strings are distinct. */
  lemma ItemValueRoundTrip(t: ItemType)
    ensures ItemFromValue(ItemValue(t)) == Some(t)
    ensures forall u: ItemType :: ItemValue(u) == ItemValue(t) ==> u == t
  {
  }

  /** Each `RoleType` is read back from its stored string, so the three
      stored strings are distinct. */
  lemma RoleValueRoundTrip(t: RoleType)
    ensures RoleFromValue(RoleValue(t)) == Some(t)
    ensures forall u: RoleType :: RoleValue(u) == RoleValue(t) ==> u == t
  {
  }

  /** The stored strings of `RoleType` are exactly three distinct strings,
      one per variant, and those of `ItemType` exactly two. */
  lemma StoredValueSets()
    ensures forall t: RoleType :: RoleValue(t) in {"ADMIN", "DRIVER", "OWNER"}
    ensures {RoleValue(Admin), RoleValue(Driver), RoleValue(Owner)} == {"ADMIN", "DRIVER", "OWNER"}
    ensures |{"ADMIN", "DRIVER", "OWNER"}| == 3
    ensures forall t: ItemType :: ItemValue(t) in {"BASIC", "COUSTOM"}
    ensures {ItemValue(Basic), ItemValue(Coustom)} == {"BASIC", "COUSTOM"}
    ensures |{"BASIC", "COUSTOM"}| == 2
  {
    assert "ADMIN" != "DRIVER" && "ADMIN" != "OWNER" && "DRIVER" != "OWNER" by {
      assert "ADMIN"[0] != "DRIVER"[0] && "ADMIN"[0] != "OWNER"[0] && "DRIVER"[0] != "OWNER"[0];
    }
    assert "BASIC"[0] != "COUSTOM"[0];
  }
}

=== FILE: role_service.dfy ===
/** The role service: the API-side role type `UserRoleType` with its
    conversions to and from the stored `RoleType`, and the role aggregate
    that inserts one role row. */
module RoleService {
  import W = Wrappers
  import R = Rows
  import S = Store
  import E = ActiveEnums

  /** The role type of the API. It has one more value than the stored enum:
      `None`, for a string that names no role. */
  datatype UserRoleType = Admin | Driver | Owner | None

  /** `Into<RoleType> for UserRoleType`. The three real roles map to their
      stored namesakes; `None` is stored as `Driver`. */
  function IntoRoleType(t: UserRoleType): (r: E.RoleType)
    ensures t.Admin? <==> r.Admin?
    ensures t.Owner? <==> r.Owner?
    ensures r.Driver? <==> t.Driver? || t.None?
  {
    match t
    case Admin => E.RoleType.Admin
    case Driver => E.RoleType.Driver
    case Owner => E.RoleType.Owner
    case None => E.RoleType.Driver
  }

  /** `From<RoleType> for UserRoleType`: never produces `None`. */
  function FromRoleType(r: E.RoleType): (t: UserRoleType)
    ensures !t.None?
    ensures t.Admin? <==> r.Admin?
    ensures t.Owner? <==> r.Owner?
    ensures t.Driver? <==> r.Driver?
  {
    match r
    case Admin => Admin
    case Driver => Driver
    case Owner => Owner
  }

  /** `FromStr for UserRoleType`. It never fails: exactly the strings
      `Admin`, `Owner` and `Driver`, spelt with that capitalisation, give
      their roles, and every other string gives `None`. */
  function FromStr(input: string): (r: W.Result<UserRoleType, ()>)
    ensures r.Success?
    ensures r.value == Admin <==> input == "Admin"
    ensures r.value == Owner <==> input == "Owner"
    ensures r.value == Driver <==> input == "Driver"
    ensures r.value == None <==> input !in {"Admin", "Owner", "Driver"}
  {
    if input == "Admin" then W.Success(Admin)
    else if input == "Owner" then W.Success(Owner)
    else if input == "Driver" then W.Success(Driver)
    else W.Success(None)
  }

  /** `UserRoleAggregate`: one role assignment waiting to be saved. */
  datatype UserRoleAggregate = UserRoleAggregate(id: S.Uuid, userId: string, roleType: UserRoleType)

  /** `UserRoleAggregate::default_from_user_id`: the default `Driver` role
      for a user, with a freshly generated id (`newId`). */
  function DefaultFromUserId(userId: string, newId: S.Uuid): (r: UserRoleAggregate)
    ensures r.userId == userId && r.roleType == Driver && r.id == newId
    ensures IntoRoleType(r.roleType) == E.RoleType.Driver
  {
    UserRoleAggregate(newId, userId, Driver)
  }

  /** `UserRoleAggregate::save`: one insert (statement 0) of the row
      `{id, user_id, type}`, the type converted to its stored form; the
      result is the aggregate's own id. */
  function Save(s: S.Store, role: UserRoleAggregate, fault: W.Option<S.Fault>): (r: S.Effect<S.Uuid, S.DbErr>)
    ensures r.result.Success? <==> S.Raised(fault, 0).None? && !R.Has(s.role, S.RoleId, role.id)
    ensures r.result.Success? ==> r.result.value == role.id
    ensures r.result.Success? ==>
              r.after == s.(role := s.role + [S.RoleRow(role.id, role.userId, IntoRoleType(role.roleType))])
    ensures r.result.Failure? ==> r.after == s
  {
    var row := S.RoleRow(role.id, role.userId, IntoRoleType(role.roleType));
    match S.Insert(s.role, S.RoleId, row, S.Raised(fault, 0))
    case Failure(e) => S.Effect(W.Failure(e), s)
    case Success(rows) => S.Effect(W.Success(role.id), s.(role := rows))
  }

  /** A stored role converted to the API type and back is unchanged. */
  lemma StoredRoundTrip(r: E.RoleType)
    ensures IntoRoleType(FromRoleType(r)) == r
  {
  }

  /** An API role converted to the stored type and back is unchanged,
      except `None`, which comes back as `Driver`. */
  lemma ApiRoundTrip(t: UserRoleType)
    ensures t != None ==> FromRoleType(IntoRoleType(t)) == t
    ensures t == None ==> FromRoleType(IntoRoleType(t)) == Driver
  {
  }

  /** Storing a role loses information: `None` and `Driver` are stored
      alike. */
  lemma IntoRoleTypeNotInjective()
    ensures IntoRoleType(None) == IntoRoleType(Driver) && None != Driver
  {
  }

  /** Parsing is case-sensitive: the upper-case spelling of a role, which
      is how roles are stored, names no role. */
  lemma FromStrCaseSensitive()
    ensures FromStr("ADMIN") == W.Success(None)
    ensures FromStr("DRIVER") == W.Success(None)
    ensures FromStr("OWNER") == W.Success(None)
    ensures FromStr("Admin") == W.Success(Admin)
  {
    assert "ADMIN" != "Admin" by { assert "ADMIN"[1] != "Admin"[1]; }
    assert "ADMIN" != "Owner" && "ADMIN" != "Driver";
    assert "DRIVER" != "Driver" by { assert "DRIVER"[1] != "Driver"[1]; }
    assert "DRIVER" != "Admin" && "DRIVER" != "Owner";
    assert "OWNER" != "Owner" by { assert "OWNER"[1] != "Owner"[1]; }
    assert "OWNER" != "Admin" && "OWNER" != "Driver";
  }

  /** A parsed string is stored as `Driver` exactly when it is neither
      `Admin` nor `Owner`: every unrecognised string, the upper-case role
      names included, ends up as a `Driver` row. */
  lemma FromStrThenStore(input: string)
    ensures IntoRoleType(FromStr(input).value) == E.RoleType.Driver
            <==> input !in {"Admin", "Owner"}
  {
  }
}

=== FILE: rows.dfy ===
/** Generic operations on a table held as a sequence of rows, in the order a
    scan returns them. A column is a function from a row to its value; the
    relational primitives the services use — a filtered scan
    (`WHERE col = k`), a filtered delete (`DELETE ... WHERE col = k`) and a
    first-match lookup (`SELECT ... WHERE col = k LIMIT 1`) — are `Select`,
    `Reject` and `IndexOf` below. */
module Rows {
  import opened Wrappers

  /** Some row has value `k` in column `col`. */
  predicate Has<T, K(==)>(s: seq<T>, col: T -> K, k: K) {
    exists i :: 0 <= i < |s| && col(s[i]) == k
  }

  /** No two rows share a value in column `col` (a primary key). */
  predicate Unique<T, K(==)>(s: seq<T>, col: T -> K) {
    forall i, j :: 0 <= i < j < |s| ==> col(s[i]) != col(s[j])
  }

  /** The rows whose column `col` equals `k`, in table order. */
  function Select<T, K(==)>(s: seq<T>, col: T -> K, k: K): (r: seq<T>)
    ensures forall i :: 0 <= i < |r| ==> r[i] in s && col(r[i]) == k
    ensures forall i :: 0 <= i < |s| && col(s[i]) == k ==> s[i] in r
    ensures |r| <= |s|
    ensures |r| == 0 <==> !Has(s, col, k)
  {
    if s == [] then []
    else if col(s[0]) == k then [s[0]] + Select(s[1..], col, k)
    else Select(s[1..], col, k)
  }

  /** The rows whose column `col` differs from `k`, in table order: what a
      `DELETE ... WHERE col = k` leaves behind. Together with `Select` it
      partitions the table. */
  function Reject<T, K(==)>(s: seq<T>, col: T -> K, k: K): (r: seq<T>)
    ensures forall i :: 0 <= i < |r| ==> col(r[i]) != k
    ensures |r| + |Select(s, col, k)| == |s|
  {
    if s == [] then []
    else if col(s[0]) == k then Reject(s[1..], col, k)
    else [s[0]] + Reject(s[1..], col, k)
  }

  /** `Select` and `Reject` on the same column and value partition the
      table: every row goes to exactly one side, with its multiplicity. */
  lemma {:induction false} Partition<T, K>(s: seq<T>, col: T -> K, k: K)
    ensures multiset(Reject(s, col, k)) + multiset(Select(s, col, k)) == multiset(s)
  {
    if s != [] {
      Partition(s[1..], col, k);
      assert multiset(s) == multiset{s[0]} + multiset(s[1..]) by {
        assert s == [s[0]] + s[1..];
      }
      if col(s[0]) == k {
        assert Select(s, col, k) == [s[0]] + Select(s[1..], col, k);
        assert Reject(s, col, k) == Reject(s[1..], col, k);
      } else {
        assert Select(s, col, k) == Select(s[1..], col, k);
        assert Reject(s, col, k) == [s[0]] + Reject(s[1..], col, k);
      }
    }
  }

  /** The index of the first row whose column `col` equals `k`. */
  function IndexOf<T, K(==)>(s: seq<T>, col: T -> K, k: K): (r: Option<nat>)
    ensures r.Some? ==> r.value < |s| && col(s[r.value]) == k
    ensures r.Some? ==> forall j :: 0 <= j < r.value ==> col(s[j]) != k
    ensures r.None? <==> !Has(s, col, k)
  {
    if s == [] then None
    else if col(s[0]) == k then Some(0)
    else match IndexOf(s[1..], col, k)
      case None => None
      case Some(j) => Some(j + 1)
  }

  /** A filtered scan distributes over an append: rows added at the end of
      a table are found at the end of the scan. */
  lemma {:induction false} SelectAppend<T, K>(a: seq<T>, b: seq<T>, col: T -> K, k: K)
    ensures Select(a + b, col, k) == Select(a, col, k) + Select(b, col, k)
  {
    if a == [] {
      assert a + b == b;
    } else {
      assert (a + b)[1..] == a[1..] + b;
      SelectAppend(a[1..], b, col, k);
    }
  }

  /** Deleting by a value no row holds leaves the table as it was. */
  lemma {:induction false} RejectAbsent<T, K>(s: seq<T>, col: T -> K, k: K)
    requires !Has(s, col, k)
    ensures Reject(s, col, k) == s
  {
    if s != [] {
      assert !Has(s[1..], col, k) by {
        forall i | 0 <= i < |s[1..]|
          ensures col(s[1..][i]) != k
        {
          assert s[1..][i] == s[i + 1];
        }
      }
      RejectAbsent(s[1..], col, k);
    }
  }

  /** A filtered delete keeps every row whose column differs from `k`. */
  lemma {:induction false} RejectKeeps<T, K>(s: seq<T>, col: T -> K, k: K)
    ensures forall i :: 0 <= i < |s| && col(s[i]) != k ==> s[i] in Reject(s, col, k)
  {
    if s != [] {
      RejectKeeps(s[1..], col, k);
      assert forall i :: 1 <= i < |s| ==> s[i] == s[1..][i - 1];
    }
  }

  /** Every row a filtered delete keeps was in the table. */
  lemma RejectMember<T, K>(s: seq<T>, col: T -> K, k: K, x: T)
    requires x in Reject(s, col, k)
    ensures x in s
  {
    Partition(s, col, k);
    assert multiset(Reject(s, col, k))[x] > 0;
  }

  lemma TailUnique<T, K>(s: seq<T>, col: T -> K)
    requires s != [] && Unique(s, col)
    ensures Unique(s[1..], col)
  {
    forall a, b | 0 <= a < b < |s[1..]|
      ensures col(s[1..][a]) != col(s[1..][b])
    {
      assert s[1..][a] == s[a + 1] && s[1..][b] == s[b + 1];
    }
  }

  /** In a table with a unique key, the key of the head row occurs nowhere
      in the tail. */
  lemma HeadKeyAbsent<T, K>(s: seq<T>, col: T -> K)
    requires s != [] && Unique(s, col)
    ensures !Has(s[1..], col, col(s[0]))
  {
    forall j | 0 <= j < |s[1..]|
      ensures col(s[1..][j]) != col(s[0])
    {
      assert s[1..][j] == s[j + 1];
    }
  }

  /** Deleting on a value that only row `i` holds removes exactly that
      row and keeps every other row in place. */
  lemma {:induction false} RejectOnly<T, K>(s: seq<T>, col: T -> K, k: K, i: nat)
    requires i < |s| && col(s[i]) == k
    requires forall j :: 0 <= j < |s| && j != i ==> col(s[j]) != k
    ensures Reject(s, col, k) == s[..i] + s[i + 1..]
  {
    var t := s[1..];
    if i == 0 {
      assert forall j :: 0 <= j < |t| ==> col(t[j]) != k by {
        forall j | 0 <= j < |t|
          ensures col(t[j]) != k
        {
          assert t[j] == s[j + 1];
        }
      }
      RejectAbsent(t, col, k);
      assert s[i + 1..] == t;
    } else {
      assert forall j :: 0 <= j < |t| && j != i - 1 ==> col(t[j]) != k by {
        forall j | 0 <= j < |t| && j != i - 1
          ensures col(t[j]) != k
        {
          assert t[j] == s[j + 1];
        }
      }
      assert t[i - 1] == s[i];
      RejectOnly(t, col, k, i - 1);
      assert col(s[0]) != k;
      assert t[..i - 1] == s[1..i] && t[i..] == s[i + 1..];
      assert [s[0]] + s[1..i] == s[..i];
    }
  }

  /** Deleting by the primary key of row `i` removes exactly that row and
      keeps every other row in place. */
  lemma RejectUnique<T, K>(s: seq<T>, col: T -> K, i: nat)
    requires i < |s|
    requires Unique(s, col)
    ensures Reject(s, col, col(s[i])) == s[..i] + s[i + 1..]
  {
    forall j | 0 <= j < |s| && j != i
      ensures col(s[j]) != col(s[i])
    {
      if j < i {
        assert col(s[j]) != col(s[i]);
      } else {
        assert col(s[i]) != col(s[j]);
      }
    }
    RejectOnly(s, col, col(s[i]), i);
  }

  /** A filtered delete on `k` does not disturb the rows that hold any other
      value `k'` in the same column. */
  lemma {:induction false} SelectReject<T, K>(s: seq<T>, col: T -> K, k: K, k': K)
    requires k != k'
    ensures Select(Reject(s, col, k), col, k') == Select(s, col, k')
  {
    if s != [] {
      SelectReject(s[1..], col, k, k');
      if col(s[0]) != k {
        assert ([s[0]] + Reject(s[1..], col, k))[1..] == Reject(s[1..], col, k);
      }
    }
  }

  /** A filtered delete keeps the table's primary key unique. */
  lemma {:induction false} RejectKeepsUnique<T, K, J>(s: seq<T>, key: T -> K, col: T -> J, k: J)
    requires Unique(s, key)
    ensures Unique(Reject(s, col, k), key)
  {
    if s != [] {
      TailUnique(s, key);
      RejectKeepsUnique(s[1..], key, col, k);
      if col(s[0]) != k {
        ConsKeepsUnique(s, key, Reject(s[1..], col, k), col, k);
      }
    }
  }

  lemma ConsKeepsUnique<T, K, J>(s: seq<T>, key: T -> K, rest: seq<T>, col: T -> J, k: J)
    requires s != [] && Unique(s, key)
    requires rest == Reject(s[1..], col, k) && Unique(rest, key)
    ensures Unique([s[0]] + rest, key)
  {
    var r := [s[0]] + rest;
    forall b | 0 < b < |r|
      ensures key(r[0]) != key(r[b])
    {
      RejectMember(s[1..], col, k, rest[b - 1]);
      HeadKeyAbsent(s, key);
      NotHasMember(s[1..], key, key(s[0]), rest[b - 1]);
    }
  }

  /** A row of a table lacking value `k` in column `col` does not hold `k`. */
  lemma NotHasMember<T, K>(s: seq<T>, col: T -> K, k: K, x: T)
    requires !Has(s, col, k) && x in s
    ensures col(x) != k
  {
  }

  /** Appending a row whose key is not yet taken keeps the key unique. */
  lemma AppendKeepsUnique<T, K>(s: seq<T>, key: T -> K, row: T)
    requires Unique(s, key)
    requires !Has(s, key, key(row))
    ensures Unique(s + [row], key)
  {
  }
}

=== FILE: store.dfy ===
/** The relational store the services talk to, as an immutable value: one
    row sequence per table, in the order a scan returns them. A service
    operation is a function from a store (and its inputs) to its result and
    the store it leaves behind.

    Things the model takes from its environment rather than computing:
    - UUID parsing and printing are function parameters (`UuidParser`,
      `UuidPrinter`);
    - freshly generated ids (`Uuid::new_v4`) are ordinary inputs;
    - store failures are an injected `Fault` naming which statement of the
      operation fails and with which error. */
module Store {
  import opened Wrappers
  import opened Rows
  import opened ActiveEnums

  /** A 128-bit UUID. */
  newtype Uuid = x: int | 0 <= x < 0x1_0000_0000_0000_0000_0000_0000_0000_0000

  /** `Uuid::parse_str`, which rejects malformed text. */
  type UuidParser = string -> Option<Uuid>

  /** `Uuid::to_string`. */
  type UuidPrinter = Uuid -> string

  /** A `rust_decimal::Decimal`, carried but never computed with. */
  datatype Decimal = Decimal(mantissa: int, scale: nat)

  /** A timestamp column, carried but never computed with. */
  datatype DateTime = DateTime(ticks: int)

  datatype UserRow = UserRow(id: string, userName: string, avatarUrl: Option<string>)
  datatype RoleRow = RoleRow(id: Uuid, userId: string, roleType: RoleType)
  datatype TeamRow = TeamRow(id: Uuid, teamName: string, userId: string)
  datatype TeamDriverRow = TeamDriverRow(id: Uuid, userId: string, teamId: Uuid)
  datatype TeamCarRow = TeamCarRow(id: Uuid, carPlateNumber: string, teamId: Uuid)
  datatype BillingRow = BillingRow(id: Uuid, teamId: Option<Uuid>, name: string,
                                   startTime: DateTime, endTime: Option<DateTime>)
  datatype BillingItemRow = BillingItemRow(id: Uuid, billingId: Option<Uuid>, cost: Decimal,
                                           itemId: Option<Uuid>, time: DateTime)

  datatype Store = Store(
    team: seq<TeamRow>,
    teamDriver: seq<TeamDriverRow>,
    teamCar: seq<TeamCarRow>,
    billing: seq<BillingRow>,
    billingItem: seq<BillingItemRow>,
    user: seq<UserRow>,
    role: seq<RoleRow>)

  // Columns, as functions from a row to the column's value.
  function UserId(r: UserRow): string { r.id }
  function RoleId(r: RoleRow): Uuid { r.id }
  function RoleUser(r: RoleRow): string { r.userId }
  function TeamId(r: TeamRow): Uuid { r.id }
  function TeamOwner(r: TeamRow): string { r.userId }
  function DriverId(r: TeamDriverRow): Uuid { r.id }
  function DriverTeam(r: TeamDriverRow): Uuid { r.teamId }
  /** The pair `(team_id, user_id)` a driver link is looked up by. */
  function DriverLink(r: TeamDriverRow): (Uuid, string) { (r.teamId, r.userId) }
  function CarId(r: TeamCarRow): Uuid { r.id }
  function CarTeam(r: TeamCarRow): Uuid { r.teamId }
  /** The pair `(team_id, id)` a car link is looked up by. */
  function CarLink(r: TeamCarRow): (Uuid, Uuid) { (r.teamId, r.id) }
  function BillingId(r: BillingRow): Uuid { r.id }
  function BillingTeam(r: BillingRow): Option<Uuid> { r.teamId }
  function BillingItemId(r: BillingItemRow): Uuid { r.id }

  /** Every table's primary key is unique. */
  predicate Valid(s: Store) {
    && Unique(s.team, TeamId)
    && Unique(s.teamDriver, DriverId)
    && Unique(s.teamCar, CarId)
    && Unique(s.billing, BillingId)
    && Unique(s.billingItem, BillingItemId)
    && Unique(s.user, UserId)
    && Unique(s.role, RoleId)
  }

  /** A store error. `DuplicateKey` is the store refusing an insert whose
      primary key is taken; every other error is opaque. */
  datatype DbErr = DuplicateKey | Backend(message: string)

  /** The store statement with index `step` (counting from 0 within one
      operation) fails with `err`; every other statement succeeds. */
  datatype Fault = Fault(step: nat, err: DbErr)

  /** The error statement `step` raises, if any. */
  function Raised(fault: Option<Fault>, step: nat): (e: Option<DbErr>)
    ensures e.Some? <==> fault.Some? && fault.value.step == step
    ensures e.Some? ==> e.value == fault.value.err
  {
    match fault
    case Some(Fault(k, err)) => if k == step then Some(err) else None
    case None => None
  }

  /** The fault as seen by an operation that starts after `n` statements of
      the enclosing request have run. */
  function Shift(fault: Option<Fault>, n: nat): (r: Option<Fault>)
    ensures forall k: nat :: Raised(r, k) == Raised(fault, k + n)
  {
    match fault
    case Some(Fault(k, err)) => if k >= n then Some(Fault(k - n, err)) else None
    case None => None
  }

  /** An `INSERT` of `row` into a table keyed by `key`: fails with the
      injected error, or with `DuplicateKey` when the key is taken, and
      otherwise appends the row. */
  function Insert<T, K(==)>(rows: seq<T>, key: T -> K, row: T, fault: Option<DbErr>): (r: Result<seq<T>, DbErr>)
    ensures fault.Some? ==> r == Failure(fault.value)
    ensures fault.None? && Has(rows, key, key(row)) ==> r == Failure(DuplicateKey)
    ensures r.Success? <==> fault.None? && !Has(rows, key, key(row))
    ensures r.Success? ==> r.value == rows + [row]
  {
    if fault.Some? then Failure(fault.value)
    else if IndexOf(rows, key, key(row)).Some? then Failure(DuplicateKey)
    else Success(rows + [row])
  }

  /** The result of an operation together with the store it leaves. */
  datatype Effect<+T, +E> = Effect(result: Result<T, E>, after: Store)
}

=== FILE: team_controller.dfy ===
/** The store logic of the team routes: creating, renaming, deleting and
    listing teams, and the team sub-routes that first resolve a team with
    `FromId` and then call one aggregate operation. The HTTP layer itself
    (paths, status codes, JSON) is reduced to `Reply`. */
module TeamController {
  import opened Wrappers
  import opened Rows
  import opened Store
  import opened TeamService

  /** A route's response: `Ok` with its body, `Error`, or `Invalid` when
      the request body fails its length validator and the route is never
      entered. */
  datatype Reply<+T> = Ok(body: T) | Error | Invalid

  /** The length bound of the validated request-body fields: the `name` of
      `TeamCreateDTO`, the `team_name` of `TeamEntityDTO`, the `team_id` of
      `TeamDeleteDTO`
      and the user id and car fields of the sub-route bodies, counted in
      characters. The `team_id` of `TeamEntityDTO` carries no validator. */
  const MaxLength: nat := 128

  predicate Fits(field: string) {
    |field| <= MaxLength
  }

  /** A reply together with the store the route leaves. */
  datatype Handled<+T> = Handled(reply: Reply<T>, after: Store)

  datatype TeamEntityDTO = TeamEntityDTO(teamName: string, teamId: string)
  datatype TeamUserResponseEntity = TeamUserResponseEntity(userId: string)
  datatype TeamCarResponseEntity = TeamCarResponseEntity(carId: string, carPlateNumber: string)

  /** `From<team::Model> for TeamEntityDTO`. */
  function ToDto(row: TeamRow, show: UuidPrinter): (r: TeamEntityDTO)
    ensures r.teamName == row.teamName && r.teamId == show(row.id)
  {
    TeamEntityDTO(row.teamName, show(row.id))
  }

  /** The `create_team` route: inserts `{newId, name, user_id}` (statement
      0). Any failure of the insert is `Error`. */
  function CreateTeam(s: Store, userId: string, name: string, newId: Uuid, fault: Option<Fault>): (r: Handled<()>)
    ensures !Fits(name) ==> r == Handled(Invalid, s)
    ensures r.reply.Ok? <==> Fits(name) && Raised(fault, 0).None? && !Has(s.team, TeamId, newId)
    ensures r.reply.Ok? ==> r.after == s.(team := s.team + [TeamRow(newId, name, userId)])
    ensures !r.reply.Ok? ==> r.after == s
  {
    if !Fits(name) then Handled(Invalid, s)
    else match Insert(s.team, TeamId, TeamRow(newId, name, userId), Raised(fault, 0))
    case Failure(_) => Handled(Error, s)
    case Success(rows) => Handled(Ok(()), s.(team := rows))
  }

  /** `UPDATE team SET team_name = name WHERE id = id`. */
  function Rename(rows: seq<TeamRow>, id: Uuid, name: string): (r: seq<TeamRow>)
    ensures |r| == |rows|
    ensures forall i :: 0 <= i < |rows| ==> r[i] == if rows[i].id == id then rows[i].(teamName := name) else rows[i]
  {
    if rows == [] then []
    else [if rows[0].id == id then rows[0].(teamName := name) else rows[0]] + Rename(rows[1..], id, name)
  }

  /** The `update_team` route: parses the DTO's team id, looks the team up
      (statement 0) and writes the new name (statement 1). A malformed id, a
      failed lookup, a missing team and a failed write are all `Error` and
      leave the store alone. On success only the name of that team changes:
      its id and owner, and every other row, stay. The path's user id is
      not consulted. */
  function UpdateTeam(s: Store, parse: UuidParser, userId: string, team: TeamEntityDTO, fault: Option<Fault>): (r: Handled<()>)
    ensures !Fits(team.teamName) ==> r == Handled(Invalid, s)
    ensures r.reply.Invalid? ==> !Fits(team.teamName)
    ensures Fits(team.teamName) && parse(team.teamId).None? ==> r == Handled(Error, s)
    ensures Fits(team.teamName) && parse(team.teamId).Some? && !Has(s.team, TeamId, parse(team.teamId).value) ==> r == Handled(Error, s)
    ensures r.reply.Ok? <==>
              Fits(team.teamName) && parse(team.teamId).Some? && Has(s.team, TeamId, parse(team.teamId).value) &&
              Raised(fault, 0).None? && Raised(fault, 1).None?
    ensures !r.reply.Ok? ==> r.after == s
    ensures r.after == s.(team := r.after.team)
    ensures |r.after.team| == |s.team|
    ensures r.reply.Ok? ==>
              forall i :: 0 <= i < |s.team| ==>
                && r.after.team[i].id == s.team[i].id
                && r.after.team[i].userId == s.team[i].userId
                && (s.team[i].id == parse(team.teamId).value ==> r.after.team[i].teamName == team.teamName)
                && (s.team[i].id != parse(team.teamId).value ==> r.after.team[i] == s.team[i])
  {
    if !Fits(team.teamName) then Handled(Invalid, s)
    else match parse(team.teamId)
    case None => Handled(Error, s)
    case Some(id) =>
      if Raised(fault, 0).Some? then Handled(Error, s)
      else match IndexOf(s.team, TeamId, id)
        case None => Handled(Error, s)
        case Some(i) =>
          if Raised(fault, 1).Some? then Handled(Error, s)
          else Handled(Ok(()), s.(team := Rename(s.team, s.team[i].id, team.teamName)))
  }

  /** The `delete_team` route: resolves the team (statement 0) and runs the
      cascading delete (statements 1-6). */
  function DeleteTeam(s: Store, parse: UuidParser, userId: string, teamId: string, fault: Option<Fault>): (r: Handled<()>)
    ensures !Fits(teamId) ==> r == Handled(Invalid, s)
    ensures Fits(teamId) && FromId(s, parse, teamId, fault).Failure? ==> r == Handled(Error, s)
    ensures r.reply.Ok? <==>
              Fits(teamId) && FromId(s, parse, teamId, fault).Success? &&
              forall k :: 1 <= k <= 6 ==> Raised(fault, k).None?
    ensures r.reply.Ok? ==> parse(teamId).Some? && !Has(r.after.team, TeamId, parse(teamId).value)
    ensures r.reply.Ok? ==>
              && !Has(r.after.teamCar, CarTeam, parse(teamId).value)
              && !Has(r.after.teamDriver, DriverTeam, parse(teamId).value)
              && !Has(r.after.billing, BillingTeam, Some(parse(teamId).value))
    ensures r.after.billingItem == s.billingItem && r.after.user == s.user && r.after.role == s.role
  {
    if !Fits(teamId) then Handled(Invalid, s)
    else match FromId(s, parse, teamId, fault)
    case Failure(_) => Handled(Error, s)
    case Success(t) =>
      var e := Delete(s, t, Shift(fault, 1));
      if e.result.Failure? then Handled(Error, e.after) else Handled(Ok(()), e.after)
  }

  /** The `query_team` route: one scan (statement 0) of the teams owned by
      the path's user, each turned into a DTO. */
  function QueryTeam(s: Store, show: UuidPrinter, userId: string, fault: Option<Fault>): (r: Reply<seq<TeamEntityDTO>>)
    ensures r.Error? <==> Raised(fault, 0).Some?
    ensures r.Ok? ==> |r.body| == |Select(s.team, TeamOwner, userId)|
    ensures r.Ok? ==>
              forall j :: 0 <= j < |s.team| && s.team[j].userId == userId ==> ToDto(s.team[j], show) in r.body
    ensures r.Ok? ==>
              forall i :: 0 <= i < |r.body| ==>
                (exists j :: 0 <= j < |s.team| && s.team[j].userId == userId && r.body[i] == ToDto(s.team[j], show))
    ensures r.Ok? ==>
              forall i :: 0 <= i < |r.body| ==> r.body[i] == ToDto(Select(s.team, TeamOwner, userId)[i], show)
  {
    if Raised(fault, 0).Some? then Error
    else
      var rows := Select(s.team, TeamOwner, userId);
      DtosCover(s.team, show, userId);
      Ok(Dtos(rows, show))
  }

  /** The loop of `query_team` converting each row. */
  function Dtos(rows: seq<TeamRow>, show: UuidPrinter): (r: seq<TeamEntityDTO>)
    ensures |r| == |rows|
    ensures forall i :: 0 <= i < |rows| ==> r[i] == ToDto(rows[i], show)
  {
    if rows == [] then [] else [ToDto(rows[0], show)] + Dtos(rows[1..], show)
  }

  /** The DTOs of a user's team rows are exactly the DTOs of the rows
      owned by that user. */
  lemma DtosCover(teams: seq<TeamRow>, show: UuidPrinter, userId: string)
    ensures forall j :: 0 <= j < |teams| && teams[j].userId == userId ==>
              ToDto(teams[j], show) in Dtos(Select(teams, TeamOwner, userId), show)
    ensures forall i :: 0 <= i < |Dtos(Select(teams, TeamOwner, userId), show)| ==>
              (exists j :: 0 <= j < |teams| && teams[j].userId == userId &&
                           Dtos(Select(teams, TeamOwner, userId), show)[i] == ToDto(teams[j], show))
  {
    forall j | 0 <= j < |teams| && teams[j].userId == userId
      ensures ToDto(teams[j], show) in Dtos(Select(teams, TeamOwner, userId), show)
    {
      DtosReach(teams, show, userId, j);
    }
    forall i | 0 <= i < |Dtos(Select(teams, TeamOwner, userId), show)|
      ensures exists j :: 0 <= j < |teams| && teams[j].userId == userId &&
                          Dtos(Select(teams, TeamOwner, userId), show)[i] == ToDto(teams[j], show)
    {
      var j := DtosOnly(teams, show, userId, i);
      assert 0 <= j < |teams| && teams[j].userId == userId &&
             Dtos(Select(teams, TeamOwner, userId), show)[i] == ToDto(teams[j], show);
    }
  }

  /** The DTO of a row the user owns is among the user's DTOs. */
  lemma DtosReach(teams: seq<TeamRow>, show: UuidPrinter, userId: string, j: nat)
    requires j < |teams| && teams[j].userId == userId
    ensures ToDto(teams[j], show) in Dtos(Select(teams, TeamOwner, userId), show)
  {
    var rows := Select(teams, TeamOwner, userId);
    assert TeamOwner(teams[j]) == userId;
    var k :| 0 <= k < |rows| && rows[k] == teams[j];
    assert Dtos(rows, show)[k] == ToDto(teams[j], show);
  }

  /** Each of the user's DTOs is the DTO of a row the user owns. */
  lemma DtosOnly(teams: seq<TeamRow>, show: UuidPrinter, userId: string, i: nat) returns (j: nat)
    requires i < |Dtos(Select(teams, TeamOwner, userId), show)|
    ensures j < |teams| && teams[j].userId == userId
    ensures Dtos(Select(teams, TeamOwner, userId), show)[i] == ToDto(teams[j], show)
  {
    var rows := Select(teams, TeamOwner, userId);
    assert rows[i] in teams && TeamOwner(rows[i]) == userId;
    j :| 0 <= j < |teams| && teams[j] == rows[i];
  }

  /** The reply a sub-route gives for the outcome of its operation. */
  function Status<T>(result: Result<T, TeamError>): Reply<()> {
    if result.Success? then Ok(()) else Error
  }

  /** `team_delete_user`: resolve the team (statement 0), then
      `delete_driver` (statements 1-2). */
  function TeamDeleteUser(s: Store, parse: UuidParser, teamId: string, userId: string, fault: Option<Fault>): (r: Handled<()>)
    ensures !Fits(userId) ==> r == Handled(Invalid, s)
    ensures Fits(userId) && FromId(s, parse, teamId, fault).Failure? ==> r == Handled(Error, s)
    ensures r.reply.Ok? <==>
              Fits(userId) && FromId(s, parse, teamId, fault).Success? && Raised(fault, 1).None? &&
              (Has(s.teamDriver, DriverLink, (parse(teamId).value, userId)) ==> Raised(fault, 2).None?)
    ensures r.reply.Ok? && Has(s.teamDriver, DriverLink, (parse(teamId).value, userId)) ==>
              |r.after.teamDriver| < |s.teamDriver|
    ensures !r.reply.Ok? ==> r.after == s
    ensures r.after == s.(teamDriver := r.after.teamDriver)
  {
    if !Fits(userId) then Handled(Invalid, s)
    else match FromId(s, parse, teamId, fault)
    case Failure(_) => Handled(Error, s)
    case Success(team) =>
      var e := DeleteDriver(s, team, userId, Shift(fault, 1));
      Handled(Status(e.result), e.after)
  }

  /** `team_add_user`: resolve the team (statement 0), then `add_driver`
      (statement 1). */
  function TeamAddUser(s: Store, parse: UuidParser, teamId: string, userId: string, newId: Uuid, fault: Option<Fault>): (r: Handled<()>)
    ensures !Fits(userId) ==> r == Handled(Invalid, s)
    ensures Fits(userId) && FromId(s, parse, teamId, fault).Failure? ==> r == Handled(Error, s)
    ensures r.reply.Ok? <==>
              Fits(userId) && FromId(s, parse, teamId, fault).Success? &&
              Raised(fault, 1).None? && !Has(s.teamDriver, DriverId, newId)
    ensures r.reply.Ok? ==> parse(teamId).Some?
    ensures r.reply.Ok? ==>
              r.after == s.(teamDriver := s.teamDriver + [TeamDriverRow(newId, userId, parse(teamId).value)])
    ensures !r.reply.Ok? ==> r.after == s
  {
    if !Fits(userId) then Handled(Invalid, s)
    else match FromId(s, parse, teamId, fault)
    case Failure(_) => Handled(Error, s)
    case Success(team) =>
      var e := AddDriver(s, team, userId, newId, Shift(fault, 1));
      Handled(Status(e.result), e.after)
  }

  /** The loop of `team_get_user` converting each driver. */
  function UserEntities(users: seq<TeamUser>): (r: seq<TeamUserResponseEntity>)
    ensures |r| == |users|
    ensures forall i :: 0 <= i < |users| ==> r[i] == TeamUserResponseEntity(users[i].userId)
  {
    if users == [] then [] else [TeamUserResponseEntity(users[0].userId)] + UserEntities(users[1..])
  }

  /** `team_get_user`: resolve the team (statement 0), then `get_drivers`
      (statement 1). The reply lists the user of every link of the team,
      and only those. */
  function TeamGetUser(s: Store, parse: UuidParser, teamId: string, fault: Option<Fault>): (r: Reply<seq<TeamUserResponseEntity>>)
    ensures FromId(s, parse, teamId, fault).Failure? ==> r == Error
    ensures r.Ok? <==> FromId(s, parse, teamId, fault).Success? && Raised(fault, 1).None?
    ensures r.Ok? ==> parse(teamId).Some? && |r.body| == |Select(s.teamDriver, DriverTeam, parse(teamId).value)|
    ensures r.Ok? ==>
              forall j :: 0 <= j < |s.teamDriver| && s.teamDriver[j].teamId == parse(teamId).value ==>
                TeamUserResponseEntity(s.teamDriver[j].userId) in r.body
    ensures r.Ok? ==>
              forall i :: 0 <= i < |r.body| ==> Has(s.teamDriver, DriverLink, (parse(teamId).value, r.body[i].userId))
    ensures r.Ok? ==>
              forall i :: 0 <= i < |r.body| ==>
                r.body[i].userId == Select(s.teamDriver, DriverTeam, parse(teamId).value)[i].userId
  {
    match FromId(s, parse, teamId, fault)
    case Failure(_) => Error
    case Success(team) =>
      match GetDrivers(s, team, Shift(fault, 1))
      case Failure(_) => Error
      case Success(users) =>
        UserEntitiesCover(s.teamDriver, team.id, users);
        Ok(UserEntities(users))
  }

  /** Converting the users `get_drivers` found keeps their order, and so
      reaches the user of every link of the team. */
  lemma UserEntitiesCover(rows: seq<TeamDriverRow>, teamId: Uuid, users: seq<TeamUser>)
    requires |users| == |Select(rows, DriverTeam, teamId)|
    requires forall i :: 0 <= i < |users| ==> users[i].userId == Select(rows, DriverTeam, teamId)[i].userId
    ensures forall i :: 0 <= i < |users| ==>
              UserEntities(users)[i].userId == Select(rows, DriverTeam, teamId)[i].userId
    ensures forall j :: 0 <= j < |rows| && rows[j].teamId == teamId ==>
              TeamUserResponseEntity(rows[j].userId) in UserEntities(users)
  {
    var sel := Select(rows, DriverTeam, teamId);
    var body := UserEntities(users);
    forall j | 0 <= j < |rows| && rows[j].teamId == teamId
      ensures TeamUserResponseEntity(rows[j].userId) in body
    {
      assert DriverTeam(rows[j]) == teamId;
      var k :| 0 <= k < |sel| && sel[k] == rows[j];
      assert body[k] == TeamUserResponseEntity(rows[j].userId);
    }
  }

  /** `team_add_car`: resolve the team (statement 0), then `add_car`
      (statement 1). */
  function TeamAddCar(s: Store, parse: UuidParser, teamId: string, plate: string, newId: Uuid, fault: Option<Fault>): (r: Handled<()>)
    ensures !Fits(plate) ==> r == Handled(Invalid, s)
    ensures Fits(plate) && FromId(s, parse, teamId, fault).Failure? ==> r == Handled(Error, s)
    ensures r.reply.Ok? <==>
              Fits(plate) && FromId(s, parse, teamId, fault).Success? &&
              Raised(fault, 1).None? && !Has(s.teamCar, CarId, newId)
    ensures r.reply.Ok? ==> parse(teamId).Some?
    ensures r.reply.Ok? ==>
              r.after == s.(teamCar := s.teamCar + [TeamCarRow(newId, plate, parse(teamId).value)])
    ensures !r.reply.Ok? ==> r.after == s
  {
    if !Fits(plate) then Handled(Invalid, s)
    else match FromId(s, parse, teamId, fault)
    case Failure(_) => Handled(Error, s)
    case Success(team) =>
      var e := AddCar(s, team, plate, newId, Shift(fault, 1));
      Handled(Status(e.result), e.after)
  }

  /** `team_delete_car`: resolve the team (statement 0), then `delete_car`
      (statements 1-2). */
  function TeamDeleteCar(s: Store, parse: UuidParser, teamId: string, carId: string, fault: Option<Fault>): (r: Handled<()>)
    ensures !Fits(carId) ==> r == Handled(Invalid, s)
    ensures Fits(carId) && FromId(s, parse, teamId, fault).Failure? ==> r == Handled(Error, s)
    ensures Fits(carId) && parse(carId).None? ==> r == Handled(Error, s)
    ensures r.reply.Ok? <==>
              Fits(carId) && FromId(s, parse, teamId, fault).Success? && parse(carId).Some? && Raised(fault, 1).None? &&
              (Has(s.teamCar, CarLink, (parse(teamId).value, parse(carId).value)) ==> Raised(fault, 2).None?)
    ensures !r.reply.Ok? ==> r.after == s
    ensures r.reply.Ok? ==>
              parse(teamId).Some? && parse(carId).Some? &&
              !Has(r.after.teamCar, CarLink, (parse(teamId).value, parse(carId).value))
    ensures r.after == s.(teamCar := r.after.teamCar)
  {
    if !Fits(carId) then Handled(Invalid, s)
    else match FromId(s, parse, teamId, fault)
    case Failure(_) => Handled(Error, s)
    case Success(team) =>
      var e := DeleteCar(s, parse, team, carId, Shift(fault, 1));
      Handled(Status(e.result), e.after)
  }

  /** The loop of `team_get_car` converting each car, its id printed. */
  function CarEntities(cars: seq<TeamCar>, show: UuidPrinter): (r: seq<TeamCarResponseEntity>)
    ensures |r| == |cars|
    ensures forall i :: 0 <= i < |cars| ==> r[i] == TeamCarResponseEntity(show(cars[i].carId), cars[i].carPlateNumber)
  {
    if cars == [] then []
    else [TeamCarResponseEntity(show(cars[0].carId), cars[0].carPlateNumber)] + CarEntities(cars[1..], show)
  }

  /** `team_get_car`: resolve the team (statement 0), then `get_cars`
      (statement 1). The reply lists every car of the team, and only
      those, with its printed id, in table order. */
  function TeamGetCar(s: Store, parse: UuidParser, show: UuidPrinter, teamId: string, fault: Option<Fault>): (r: Reply<seq<TeamCarResponseEntity>>)
    ensures FromId(s, parse, teamId, fault).Failure? ==> r == Error
    ensures r.Ok? <==> FromId(s, parse, teamId, fault).Success? && Raised(fault, 1).None?
    ensures r.Ok? ==> parse(teamId).Some? && |r.body| == |Select(s.teamCar, CarTeam, parse(teamId).value)|
    ensures r.Ok? ==>
              forall j :: 0 <= j < |s.teamCar| && s.teamCar[j].teamId == parse(teamId).value ==>
                TeamCarResponseEntity(show(s.teamCar[j].id), s.teamCar[j].carPlateNumber) in r.body
    ensures r.Ok? ==>
              forall i :: 0 <= i < |r.body| ==>
                (exists j :: 0 <= j < |s.teamCar| && s.teamCar[j].teamId == parse(teamId).value &&
                             r.body[i] == TeamCarResponseEntity(show(s.teamCar[j].id), s.teamCar[j].carPlateNumber))
    ensures r.Ok? ==>
              forall i :: 0 <= i < |r.body| ==>
                r.body[i] == TeamCarResponseEntity(show(Select(s.teamCar, CarTeam, parse(teamId).value)[i].id),
                                                   Select(s.teamCar, CarTeam, parse(teamId).value)[i].carPlateNumber)
  {
    match FromId(s, parse, teamId, fault)
    case Failure(_) => Error
    case Success(team) => CarsOf(s, team, show, Shift(fault, 1))
  }

  /** The part of `team_get_car` after the team is resolved. */
  function CarsOf(s: Store, team: Team, show: UuidPrinter, fault: Option<Fault>): (r: Reply<seq<TeamCarResponseEntity>>)
    ensures r.Ok? <==> Raised(fault, 0).None?
    ensures !r.Invalid?
    ensures r.Ok? ==> |r.body| == |Select(s.teamCar, CarTeam, team.id)|
    ensures r.Ok? ==>
              forall j :: 0 <= j < |s.teamCar| && s.teamCar[j].teamId == team.id ==>
                TeamCarResponseEntity(show(s.teamCar[j].id), s.teamCar[j].carPlateNumber) in r.body
    ensures r.Ok? ==>
              forall i :: 0 <= i < |r.body| ==>
                (exists j :: 0 <= j < |s.teamCar| && s.teamCar[j].teamId == team.id &&
                             r.body[i] == TeamCarResponseEntity(show(s.teamCar[j].id), s.teamCar[j].carPlateNumber))
    ensures r.Ok? ==>
              forall i :: 0 <= i < |r.body| ==>
                r.body[i] == TeamCarResponseEntity(show(Select(s.teamCar, CarTeam, team.id)[i].id),
                                                   Select(s.teamCar, CarTeam, team.id)[i].carPlateNumber)
  {
    match GetCars(s, team, fault)
    case Failure(_) => Error
    case Success(cars) =>
      CarEntitiesCover(s.teamCar, team.id, cars, show);
      Ok(CarEntities(cars, show))
  }

  /** Printing the cars `get_cars` found keeps their order, reaches every
      car of the team and nothing else. */
  lemma CarEntitiesCover(rows: seq<TeamCarRow>, teamId: Uuid, cars: seq<TeamCar>, show: UuidPrinter)
    requires |cars| == |Select(rows, CarTeam, teamId)|
    requires forall i :: 0 <= i < |cars| ==>
               cars[i] == TeamCar(Select(rows, CarTeam, teamId)[i].id, Select(rows, CarTeam, teamId)[i].carPlateNumber)
    ensures forall i :: 0 <= i < |cars| ==>
              CarEntities(cars, show)[i] == TeamCarResponseEntity(show(Select(rows, CarTeam, teamId)[i].id),
                                                                  Select(rows, CarTeam, teamId)[i].carPlateNumber)
    ensures forall j :: 0 <= j < |rows| && rows[j].teamId == teamId ==>
              TeamCarResponseEntity(show(rows[j].id), rows[j].carPlateNumber) in CarEntities(cars, show)
    ensures forall i :: 0 <= i < |cars| ==>
              (exists j :: 0 <= j < |rows| && rows[j].teamId == teamId &&
                           CarEntities(cars, show)[i] == TeamCarResponseEntity(show(rows[j].id), rows[j].carPlateNumber))
  {
    var sel := Select(rows, CarTeam, teamId);
    var body := CarEntities(cars, show);
    forall j | 0 <= j < |rows| && rows[j].teamId == teamId
      ensures TeamCarResponseEntity(show(rows[j].id), rows[j].carPlateNumber) in body
    {
      assert CarTeam(rows[j]) == teamId;
      var k :| 0 <= k < |sel| && sel[k] == rows[j];
      assert body[k] == TeamCarResponseEntity(show(rows[j].id), rows[j].carPlateNumber);
    }
    forall i | 0 <= i < |cars|
      ensures exists j :: 0 <= j < |rows| && rows[j].teamId == teamId &&
                          body[i] == TeamCarResponseEntity(show(rows[j].id), rows[j].carPlateNumber)
    {
      assert sel[i] in rows && CarTeam(sel[i]) == teamId;
      var j :| 0 <= j < |rows| && rows[j] == sel[i];
      assert body[i] == TeamCarResponseEntity(show(rows[j].id), rows[j].carPlateNumber);
    }
  }
}

=== FILE: team_controller_properties.dfy ===
/** Properties of the team routes across calls: what a later query sees
    after a create, a rename or a delete, and the end-to-end scenario of
    setting a team up and tearing it down. */
module TeamControllerProperties {
  import opened Wrappers
  import opened Rows
  import opened Store
  import opened TeamService
  import opened TeamController
  import TeamProperties

  /** Converting rows to DTOs commutes with appending rows. */
  lemma {:induction false} DtosAppend(a: seq<TeamRow>, b: seq<TeamRow>, show: UuidPrinter)
    ensures Dtos(a + b, show) == Dtos(a, show) + Dtos(b, show)
  {
    if a == [] {
      assert a + b == b;
    } else {
      assert (a + b)[1..] == a[1..] + b;
      DtosAppend(a[1..], b, show);
    }
  }

  /** After `create_team` the owner's team list is the old list with the
      new team's DTO at its end. */
  lemma CreateTeamThenQuery(s: Store, show: UuidPrinter, userId: string, name: string, newId: Uuid, fault: Option<Fault>)
    requires CreateTeam(s, userId, name, newId, fault).reply.Ok?
    ensures QueryTeam(CreateTeam(s, userId, name, newId, fault).after, show, userId, None)
            == Ok(QueryTeam(s, show, userId, None).body + [TeamEntityDTO(name, show(newId))])
  {
    var row := TeamRow(newId, name, userId);
    var after := CreateTeam(s, userId, name, newId, fault).after;
    assert after.team == s.team + [row];
    SelectAppend(s.team, [row], TeamOwner, userId);
    assert Select([row], TeamOwner, userId) == [row];
    DtosAppend(Select(s.team, TeamOwner, userId), [row], show);
    assert Dtos([row], show) == [TeamEntityDTO(name, show(newId))];
    assert QueryTeam(s, show, userId, None).body == Dtos(Select(s.team, TeamOwner, userId), show);
    assert QueryTeam(after, show, userId, None) == Ok(Dtos(Select(after.team, TeamOwner, userId), show));
  }

  /** `create_team` leaves every other user's team list as it was. */
  lemma CreateTeamThenQueryOther(s: Store, show: UuidPrinter, userId: string, name: string, newId: Uuid,
                                 fault: Option<Fault>, other: string)
    requires other != userId
    ensures QueryTeam(CreateTeam(s, userId, name, newId, fault).after, show, other, None)
            == QueryTeam(s, show, other, None)
  {
    var row := TeamRow(newId, name, userId);
    var after := CreateTeam(s, userId, name, newId, fault).after;
    if after != s {
      assert after.team == s.team + [row];
      SelectAppend(s.team, [row], TeamOwner, other);
      assert Select([row], TeamOwner, other) == [];
      assert Select(after.team, TeamOwner, other) == Select(s.team, TeamOwner, other);
      assert QueryTeam(after, show, other, None) == Ok(Dtos(Select(after.team, TeamOwner, other), show));
    }
  }

  /** After a successful `update_team` the team resolves with its new name
      and its old id and owner. */
  lemma UpdateTeamThenResolve(s: Store, parse: UuidParser, userId: string, dto: TeamEntityDTO, fault: Option<Fault>)
    requires UpdateTeam(s, parse, userId, dto, fault).reply.Ok?
    ensures FromId(s, parse, dto.teamId, None).Success?
    ensures FromId(UpdateTeam(s, parse, userId, dto, fault).after, parse, dto.teamId, None)
            == Success(FromId(s, parse, dto.teamId, None).value.(name := dto.teamName))
  {
    var id := parse(dto.teamId).value;
    var i := IndexOf(s.team, TeamId, id).value;
    var renamed := Rename(s.team, s.team[i].id, dto.teamName);
    assert UpdateTeam(s, parse, userId, dto, fault).after == s.(team := renamed);
    RenameKeepsIndex(s.team, s.team[i].id, dto.teamName, id);
    assert renamed[i] == s.team[i].(teamName := dto.teamName);
  }

  /** Renaming does not move the first row with a given id. */
  lemma {:induction false} RenameKeepsIndex(rows: seq<TeamRow>, id: Uuid, name: string, k: Uuid)
    ensures IndexOf(Rename(rows, id, name), TeamId, k) == IndexOf(rows, TeamId, k)
  {
    if rows != [] {
      RenameKeepsIndex(rows[1..], id, name, k);
      assert Rename(rows, id, name)[1..] == Rename(rows[1..], id, name);
    }
  }

  /** Renaming keeps every team id unique. */
  lemma UpdateTeamKeepsValid(s: Store, parse: UuidParser, userId: string, dto: TeamEntityDTO, fault: Option<Fault>)
    requires Valid(s)
    ensures Valid(UpdateTeam(s, parse, userId, dto, fault).after)
  {
    var after := UpdateTeam(s, parse, userId, dto, fault).after;
    assert forall j :: 0 <= j < |s.team| ==> TeamId(after.team[j]) == TeamId(s.team[j]);
  }

  /** Creating a team keeps every team id unique. */
  lemma CreateTeamKeepsValid(s: Store, userId: string, name: string, newId: Uuid, fault: Option<Fault>)
    requires Valid(s)
    ensures Valid(CreateTeam(s, userId, name, newId, fault).after)
  {
    if CreateTeam(s, userId, name, newId, fault).reply.Ok? {
      AppendKeepsUnique(s.team, TeamId, TeamRow(newId, name, userId));
    }
  }

  /** A DTO returned by `query_team`, with its name changed, is accepted by
      `update_team`, provided the printer and the parser agree on UUIDs and
      the new name passes the length validator. */
  lemma QueryThenUpdate(s: Store, parse: UuidParser, show: UuidPrinter, owner: string, userId: string,
                        d: TeamEntityDTO, name: string)
    requires forall u :: parse(show(u)) == Some(u)
    requires d in QueryTeam(s, show, owner, None).body
    requires Fits(name)
    ensures UpdateTeam(s, parse, userId, d.(teamName := name), None).reply.Ok?
  {
    var body := QueryTeam(s, show, owner, None).body;
    var i :| 0 <= i < |body| && body[i] == d;
    var row := Select(s.team, TeamOwner, owner)[i];
    assert d == ToDto(row, show) && row in s.team;
    assert parse(d.teamId) == Some(row.id);
    assert TeamId(row) == row.id;
  }

  /** The `update_team` route does not look at the user in its path: any
      user may rename any team. */
  lemma UpdateTeamIgnoresPathUser(s: Store, parse: UuidParser, a: string, b: string, dto: TeamEntityDTO, fault: Option<Fault>)
    ensures UpdateTeam(s, parse, a, dto, fault) == UpdateTeam(s, parse, b, dto, fault)
  {
  }

  /** After a successful `delete_team` the team no longer resolves, so
      every team sub-route on it answers `Error`. */
  lemma DeleteTeamThenRoutes(s: Store, parse: UuidParser, userId: string, teamId: string, fault: Option<Fault>, show: UuidPrinter)
    requires DeleteTeam(s, parse, userId, teamId, fault).reply.Ok?
    ensures FromId(DeleteTeam(s, parse, userId, teamId, fault).after, parse, teamId, None).Failure?
    ensures TeamGetUser(DeleteTeam(s, parse, userId, teamId, fault).after, parse, teamId, None) == Error
    ensures TeamGetCar(DeleteTeam(s, parse, userId, teamId, fault).after, parse, show, teamId, None) == Error
  {
  }

  /** `delete_team` keeps every primary key unique, whichever statement
      fails. */
  lemma DeleteTeamKeepsValid(s: Store, parse: UuidParser, userId: string, teamId: string, fault: Option<Fault>)
    requires Valid(s)
    ensures Valid(DeleteTeam(s, parse, userId, teamId, fault).after)
  {
    if Fits(teamId) && FromId(s, parse, teamId, fault).Success? {
      TeamProperties.DeleteKeepsValid(s, FromId(s, parse, teamId, fault).value, Shift(fault, 1));
    }
  }

  /** `team_delete_user` undoes `team_add_user`: when the team had no link
      for the user, deleting the user right after adding it answers `Ok`
      and gives back the store as it was. */
  lemma TeamAddUserThenDeleteUser(s: Store, parse: UuidParser, teamId: string, userId: string, newId: Uuid)
    requires TeamAddUser(s, parse, teamId, userId, newId, None).reply.Ok?
    requires !Has(s.teamDriver, DriverLink, (parse(teamId).value, userId))
    ensures TeamDeleteUser(TeamAddUser(s, parse, teamId, userId, newId, None).after, parse, teamId, userId, None)
            == Handled(Ok(()), s)
  {
    var tid := parse(teamId).value;
    var row := TeamDriverRow(newId, userId, tid);
    var after := TeamAddUser(s, parse, teamId, userId, newId, None).after;
    var n := |s.teamDriver|;
    assert after == s.(teamDriver := s.teamDriver + [row]);
    assert FromId(after, parse, teamId, None) == FromId(s, parse, teamId, None);
    var team := FromId(s, parse, teamId, None).value;
    assert team.id == tid;
    assert after.teamDriver[n] == row;
    assert forall j :: 0 <= j < n ==> after.teamDriver[j] == s.teamDriver[j];
    assert IndexOf(after.teamDriver, DriverLink, (tid, userId)) == Some(n) by {
      var m := IndexOf(after.teamDriver, DriverLink, (tid, userId));
      assert DriverLink(after.teamDriver[n]) == (tid, userId);
    }
    assert forall j :: 0 <= j < |after.teamDriver| && j != n ==> DriverId(after.teamDriver[j]) != newId by {
      forall j | 0 <= j < |after.teamDriver| && j != n
        ensures DriverId(after.teamDriver[j]) != newId
      {
        assert after.teamDriver[j] == s.teamDriver[j];
      }
    }
    RejectOnly(after.teamDriver, DriverId, newId, n);
    assert after.teamDriver[..n] + after.teamDriver[n + 1..] == s.teamDriver;
  }

  /** `team_delete_car` undoes `team_add_car`: deleting the car right after
      adding it, addressed by a string that parses to its id, answers `Ok`
      and gives back the store as it was. */
  lemma TeamAddCarThenDeleteCar(s: Store, parse: UuidParser, teamId: string, plate: string, newId: Uuid, carId: string)
    requires TeamAddCar(s, parse, teamId, plate, newId, None).reply.Ok?
    requires parse(carId) == Some(newId) && Fits(carId)
    ensures TeamDeleteCar(TeamAddCar(s, parse, teamId, plate, newId, None).after, parse, teamId, carId, None)
            == Handled(Ok(()), s)
  {
    var tid := parse(teamId).value;
    var row := TeamCarRow(newId, plate, tid);
    var after := TeamAddCar(s, parse, teamId, plate, newId, None).after;
    var n := |s.teamCar|;
    assert after == s.(teamCar := s.teamCar + [row]);
    assert FromId(after, parse, teamId, None) == FromId(s, parse, teamId, None);
    var team := FromId(s, parse, teamId, None).value;
    assert team.id == tid;
    assert after.teamCar[n] == row;
    assert forall j :: 0 <= j < n ==> after.teamCar[j] == s.teamCar[j];
    assert !Has(s.teamCar, CarId, newId);
    assert forall j :: 0 <= j < |after.teamCar| && j != n ==> CarId(after.teamCar[j]) != newId by {
      forall j | 0 <= j < |after.teamCar| && j != n
        ensures CarId(after.teamCar[j]) != newId
      {
        assert after.teamCar[j] == s.teamCar[j];
      }
    }
    assert IndexOf(after.teamCar, CarLink, (tid, newId)) == Some(n) by {
      var m := IndexOf(after.teamCar, CarLink, (tid, newId));
      assert CarLink(after.teamCar[n]) == (tid, newId);
    }
    RejectOnly(after.teamCar, CarId, newId, n);
    assert after.teamCar[..n] + after.teamCar[n + 1..] == s.teamCar;
  }

  /** Setting a team up: create team `tid` owned by `owner`, add `driver`,
      add a car with plate `plate`, all addressed through the printed id
      `show(tid)`. */
  function SetUp(s: Store, parse: UuidParser, show: UuidPrinter, owner: string, name: string, tid: Uuid,
                 driver: string, did: Uuid, plate: string, cid: Uuid): (r: Store)
  {
    var s1 := CreateTeam(s, owner, name, tid, None).after;
    var s2 := TeamAddUser(s1, parse, show(tid), driver, did, None).after;
    TeamAddCar(s2, parse, show(tid), plate, cid, None).after
  }

  /** The three set-up calls of a fresh team all succeed, and each appends
      exactly its row. */
  lemma SetUpSucceeds(s: Store, parse: UuidParser, show: UuidPrinter, owner: string, name: string,
                      tid: Uuid, driver: string, did: Uuid, plate: string, cid: Uuid)
    requires parse(show(tid)) == Some(tid)
    requires Fits(name) && Fits(driver) && Fits(plate)
    requires !Has(s.team, TeamId, tid) && !Has(s.teamDriver, DriverId, did) && !Has(s.teamCar, CarId, cid)
    ensures CreateTeam(s, owner, name, tid, None).reply.Ok?
    ensures TeamAddUser(CreateTeam(s, owner, name, tid, None).after, parse, show(tid), driver, did, None).reply.Ok?
    ensures TeamAddCar(TeamAddUser(CreateTeam(s, owner, name, tid, None).after, parse, show(tid), driver, did, None).after,
                       parse, show(tid), plate, cid, None).reply.Ok?
    ensures SetUp(s, parse, show, owner, name, tid, driver, did, plate, cid)
            == s.(team := s.team + [TeamRow(tid, name, owner)],
                  teamDriver := s.teamDriver + [TeamDriverRow(did, driver, tid)],
                  teamCar := s.teamCar + [TeamCarRow(cid, plate, tid)])
  {
    var s1 := CreateTeam(s, owner, name, tid, None).after;
    assert s1.team == s.team + [TeamRow(tid, name, owner)];
    assert TeamId(s1.team[|s.team|]) == tid;
    assert FromId(s1, parse, show(tid), None).Success?;
    var s2 := TeamAddUser(s1, parse, show(tid), driver, did, None).after;
    assert s2 == s1.(teamDriver := s.teamDriver + [TeamDriverRow(did, driver, tid)]);
    assert TeamId(s2.team[|s.team|]) == tid;
    assert FromId(s2, parse, show(tid), None).Success?;
  }

  /** In the set-up store the fresh team resolves to itself. */
  lemma FreshTeamResolves(s: Store, t: Store, parse: UuidParser, show: UuidPrinter, owner: string, name: string, tid: Uuid)
    requires parse(show(tid)) == Some(tid)
    requires !Has(s.team, TeamId, tid)
    requires t.team == s.team + [TeamRow(tid, name, owner)]
    ensures FromId(t, parse, show(tid), None) == Success(Team(tid, name, owner))
  {
    assert TeamId(t.team[|s.team|]) == tid;
    var i := IndexOf(t.team, TeamId, tid).value;
    assert forall j :: 0 <= j < |s.team| ==> TeamId(t.team[j]) != tid by {
      forall j | 0 <= j < |s.team|
        ensures TeamId(t.team[j]) != tid
      {
        assert t.team[j] == s.team[j];
      }
    }
    assert i == |s.team|;
  }

  /** The scenario of a team's life: after creating a fresh team owned by
      one user, adding one driver and one car, the team lists exactly that
      driver and that car; deleting it succeeds, after which the team no
      longer resolves. */
  lemma {:induction false} TeamLifecycle(s: Store, parse: UuidParser, show: UuidPrinter, owner: string, name: string,
                                         tid: Uuid, driver: string, did: Uuid, plate: string, cid: Uuid)
    requires parse(show(tid)) == Some(tid)
    requires Fits(name) && Fits(driver) && Fits(plate) && Fits(show(tid))
    requires !Has(s.team, TeamId, tid) && !Has(s.teamDriver, DriverId, did) && !Has(s.teamCar, CarId, cid)
    requires !Has(s.teamDriver, DriverTeam, tid) && !Has(s.teamCar, CarTeam, tid)
    ensures TeamGetUser(SetUp(s, parse, show, owner, name, tid, driver, did, plate, cid), parse, show(tid), None)
            == Ok([TeamUserResponseEntity(driver)])
    ensures TeamGetCar(SetUp(s, parse, show, owner, name, tid, driver, did, plate, cid), parse, show, show(tid), None)
            == Ok([TeamCarResponseEntity(show(cid), plate)])
    ensures DeleteTeam(SetUp(s, parse, show, owner, name, tid, driver, did, plate, cid), parse, owner, show(tid), None).reply.Ok?
    ensures FromId(DeleteTeam(SetUp(s, parse, show, owner, name, tid, driver, did, plate, cid), parse, owner, show(tid), None).after,
                   parse, show(tid), None).Failure?
  {
    SetUpSucceeds(s, parse, show, owner, name, tid, driver, did, plate, cid);
    var t := SetUp(s, parse, show, owner, name, tid, driver, did, plate, cid);
    FreshTeamResolves(s, t, parse, show, owner, name, tid);
    var team := Team(tid, name, owner);
    DriversOfFreshTeam(s.teamDriver, TeamDriverRow(did, driver, tid));
    CarsOfFreshTeam(s.teamCar, TeamCarRow(cid, plate, tid));
    assert GetDrivers(t, team, None) == Success(Users([TeamDriverRow(did, driver, tid)]));
    assert UserEntities([TeamUser(driver)]) == [TeamUserResponseEntity(driver)];
    assert GetCars(t, team, None) == Success(Cars([TeamCarRow(cid, plate, tid)]));
    assert CarEntities([TeamCar(cid, plate)], show) == [TeamCarResponseEntity(show(cid), plate)];
  }

  lemma DriversOfFreshTeam(rows: seq<TeamDriverRow>, row: TeamDriverRow)
    requires !Has(rows, DriverTeam, row.teamId)
    ensures Select(rows + [row], DriverTeam, row.teamId) == [row]
  {
    SelectAppend(rows, [row], DriverTeam, row.teamId);
    assert Select([row], DriverTeam, row.teamId) == [row];
  }

  lemma CarsOfFreshTeam(rows: seq<TeamCarRow>, row: TeamCarRow)
    requires !Has(rows, CarTeam, row.teamId)
    ensures Select(rows + [row], CarTeam, row.teamId) == [row]
  {
    SelectAppend(rows, [row], CarTeam, row.teamId);
    assert Select([row], CarTeam, row.teamId) == [row];
  }
}

=== FILE: team_properties.dfy ===
/** Properties of the team aggregate that relate several operations, or an
    operation to the store invariant `Valid` (unique primary keys). */
module TeamProperties {
  import opened Wrappers
  import opened Rows
  import opened Store
  import opened TeamService

  /** In a store with unique keys, resolving a team copies the fields of
      the one row with the parsed id. */
  lemma FromIdCopiesRow(s: Store, parse: UuidParser, id: string, fault: Option<Fault>, row: TeamRow)
    requires Valid(s)
    requires row in s.team && parse(id) == Some(row.id) && Raised(fault, 0).None?
    ensures FromId(s, parse, id, fault) == Success(Team(row.id, row.teamName, row.userId))
  {
    var i := IndexOf(s.team, TeamId, row.id).value;
    var j :| 0 <= j < |s.team| && s.team[j] == row;
    assert TeamId(s.team[i]) == TeamId(s.team[j]);
    assert i == j;
  }

  /** Mapping links to users commutes with appending rows. */
  lemma {:induction false} UsersAppend(a: seq<TeamDriverRow>, b: seq<TeamDriverRow>)
    ensures Users(a + b) == Users(a) + Users(b)
  {
    if a == [] {
      assert a + b == b;
    } else {
      assert (a + b)[1..] == a[1..] + b;
      UsersAppend(a[1..], b);
    }
  }

  /** Mapping links to cars commutes with appending rows. */
  lemma {:induction false} CarsAppend(a: seq<TeamCarRow>, b: seq<TeamCarRow>)
    ensures Cars(a + b) == Cars(a) + Cars(b)
  {
    if a == [] {
      assert a + b == b;
    } else {
      assert (a + b)[1..] == a[1..] + b;
      CarsAppend(a[1..], b);
    }
  }

  /** After a successful `add_driver`, the team's driver list is the old
      list with the new user at its end (a user already present is listed
      twice), and every other team's list is as it was. */
  lemma AddDriverThenGetDrivers(s: Store, team: Team, userId: string, newId: Uuid, fault: Option<Fault>, other: Team)
    requires AddDriver(s, team, userId, newId, fault).result.Success?
    ensures GetDrivers(AddDriver(s, team, userId, newId, fault).after, team, None)
            == Success(GetDrivers(s, team, None).value + [TeamUser(userId)])
    ensures other.id != team.id ==>
              GetDrivers(AddDriver(s, team, userId, newId, fault).after, other, None) == GetDrivers(s, other, None)
  {
    var row := TeamDriverRow(newId, userId, team.id);
    var after := AddDriver(s, team, userId, newId, fault).after;
    assert after.teamDriver == s.teamDriver + [row];
    SelectAppend(s.teamDriver, [row], DriverTeam, team.id);
    assert Select([row], DriverTeam, team.id) == [row];
    UsersAppend(Select(s.teamDriver, DriverTeam, team.id), [row]);
    assert Users([row]) == [TeamUser(userId)];
    if other.id != team.id {
      SelectAppend(s.teamDriver, [row], DriverTeam, other.id);
      assert Select([row], DriverTeam, other.id) == [];
      assert Select(after.teamDriver, DriverTeam, other.id) == Select(s.teamDriver, DriverTeam, other.id);
      assert GetDrivers(after, other, None) == Success(Users(Select(after.teamDriver, DriverTeam, other.id)));
    }
  }

  /** After a successful `add_car`, the team's car list is the old list with
      the new car at its end, and every other team's list is as it was. */
  lemma AddCarThenGetCars(s: Store, team: Team, plate: string, newId: Uuid, fault: Option<Fault>, other: Team)
    requires AddCar(s, team, plate, newId, fault).result.Success?
    ensures GetCars(AddCar(s, team, plate, newId, fault).after, team, None)
            == Success(GetCars(s, team, None).value + [TeamCar(newId, plate)])
    ensures other.id != team.id ==>
              GetCars(AddCar(s, team, plate, newId, fault).after, other, None) == GetCars(s, other, None)
  {
    var row := TeamCarRow(newId, plate, team.id);
    var after := AddCar(s, team, plate, newId, fault).after;
    assert after.teamCar == s.teamCar + [row];
    SelectAppend(s.teamCar, [row], CarTeam, team.id);
    assert Select([row], CarTeam, team.id) == [row];
    CarsAppend(Select(s.teamCar, CarTeam, team.id), [row]);
    assert Cars([row]) == [TeamCar(newId, plate)];
    if other.id != team.id {
      SelectAppend(s.teamCar, [row], CarTeam, other.id);
      assert Select([row], CarTeam, other.id) == [];
      assert Select(after.teamCar, CarTeam, other.id) == Select(s.teamCar, CarTeam, other.id);
      assert GetCars(after, other, None) == Success(Cars(Select(after.teamCar, CarTeam, other.id)));
    }
  }

  /** Adding a driver or a car keeps every primary key unique. */
  lemma AddKeepsValid(s: Store, team: Team, value: string, newId: Uuid, fault: Option<Fault>)
    requires Valid(s)
    ensures Valid(AddDriver(s, team, value, newId, fault).after)
    ensures Valid(AddCar(s, team, value, newId, fault).after)
  {
    if AddDriver(s, team, value, newId, fault).result.Success? {
      AppendKeepsUnique(s.teamDriver, DriverId, TeamDriverRow(newId, value, team.id));
    }
    if AddCar(s, team, value, newId, fault).result.Success? {
      AppendKeepsUnique(s.teamCar, CarId, TeamCarRow(newId, value, team.id));
    }
  }

  /** Cutting row `i` out of a table lowers the number of rows holding
      that row's value in `col` by exactly one. */
  lemma CutCount<T, K>(s: seq<T>, col: T -> K, i: nat)
    requires i < |s|
    ensures |Select(s[..i] + s[i + 1..], col, col(s[i]))| + 1 == |Select(s, col, col(s[i]))|
  {
    var k := col(s[i]);
    assert s == s[..i] + [s[i]] + s[i + 1..];
    SelectAppend(s[..i] + [s[i]], s[i + 1..], col, k);
    SelectAppend(s[..i], [s[i]], col, k);
    SelectAppend(s[..i], s[i + 1..], col, k);
  }

  /** Cutting row `i` out of a table removes one copy of that row. */
  lemma CutMultiset<T>(s: seq<T>, i: nat)
    requires i < |s|
    ensures multiset(s[..i] + s[i + 1..]) == multiset(s) - multiset{s[i]}
  {
    assert s == s[..i] + [s[i]] + s[i + 1..];
    assert multiset(s) == multiset(s[..i]) + multiset{s[i]} + multiset(s[i + 1..]);
  }

  /** In a store with unique keys, a successful `delete_driver` for a user
      linked to the team removes exactly the first such link: the other
      links, including further links of the same user to the same team,
      stay, in order. */
  lemma {:induction false} DeleteDriverRemovesFirstLink(s: Store, team: Team, userId: string, fault: Option<Fault>, i: nat)
    requires Valid(s)
    requires i < |s.teamDriver| && DriverLink(s.teamDriver[i]) == (team.id, userId)
    requires forall j :: 0 <= j < i ==> DriverLink(s.teamDriver[j]) != (team.id, userId)
    requires DeleteDriver(s, team, userId, fault).result.Success?
    ensures DeleteDriver(s, team, userId, fault).after
            == s.(teamDriver := s.teamDriver[..i] + s.teamDriver[i + 1..])
    ensures multiset(DeleteDriver(s, team, userId, fault).after.teamDriver)
            == multiset(s.teamDriver) - multiset{s.teamDriver[i]}
    ensures |Select(DeleteDriver(s, team, userId, fault).after.teamDriver, DriverLink, (team.id, userId))| + 1
            == |Select(s.teamDriver, DriverLink, (team.id, userId))|
  {
    var rows := s.teamDriver;
    assert IndexOf(rows, DriverLink, (team.id, userId)) == Some(i);
    assert Raised(fault, 0).None? && Raised(fault, 1).None?;
    assert DeleteDriver(s, team, userId, fault).after == s.(teamDriver := Reject(rows, DriverId, rows[i].id));
    RejectUnique(rows, DriverId, i);
    CutMultiset(rows, i);
    CutCount(rows, DriverLink, i);
  }

  /** In a store with unique keys, a successful `delete_car` for a car
      linked to the team removes exactly that link. */
  lemma {:induction false} DeleteCarRemovesLink(s: Store, parse: UuidParser, team: Team, carId: string, fault: Option<Fault>, i: nat)
    requires Valid(s)
    requires i < |s.teamCar| && parse(carId) == Some(s.teamCar[i].id) && s.teamCar[i].teamId == team.id
    requires DeleteCar(s, parse, team, carId, fault).result.Success?
    ensures DeleteCar(s, parse, team, carId, fault).after
            == s.(teamCar := s.teamCar[..i] + s.teamCar[i + 1..])
    ensures !Has(DeleteCar(s, parse, team, carId, fault).after.teamCar, CarId, s.teamCar[i].id)
  {
    var rows := s.teamCar;
    var k := IndexOf(rows, CarLink, (team.id, rows[i].id)).value;
    assert CarId(rows[k]) == CarId(rows[i]);
    assert k == i;
    RejectUnique(rows, CarId, i);
  }

  /** Removing a driver or a car keeps every primary key unique. */
  lemma DeleteLinkKeepsValid(s: Store, parse: UuidParser, team: Team, value: string, fault: Option<Fault>)
    requires Valid(s)
    ensures Valid(DeleteDriver(s, team, value, fault).after)
    ensures Valid(DeleteCar(s, parse, team, value, fault).after)
  {
    var d := DeleteDriver(s, team, value, fault).after;
    if d != s {
      var i := IndexOf(s.teamDriver, DriverLink, (team.id, value)).value;
      RejectKeepsUnique(s.teamDriver, DriverId, DriverId, s.teamDriver[i].id);
    }
    var c := DeleteCar(s, parse, team, value, fault).after;
    if c != s {
      var i := IndexOf(s.teamCar, CarLink, (team.id, parse(value).value)).value;
      RejectKeepsUnique(s.teamCar, CarId, CarId, s.teamCar[i].id);
    }
  }

  /** A successful cascading delete removes exactly the team's rows from
      the team, car link, driver link and billing tables — each remaining
      table together with the removed rows is the old table — and leaves
      every other team's links and billing periods as they were. */
  lemma {:induction false} DeleteRemovesExactlyTeamRows(s: Store, team: Team, fault: Option<Fault>, other: Uuid)
    requires Delete(s, team, fault).result.Success?
    ensures multiset(Delete(s, team, fault).after.teamCar) + multiset(Select(s.teamCar, CarTeam, team.id))
            == multiset(s.teamCar)
    ensures multiset(Delete(s, team, fault).after.teamDriver) + multiset(Select(s.teamDriver, DriverTeam, team.id))
            == multiset(s.teamDriver)
    ensures multiset(Delete(s, team, fault).after.billing) + multiset(Select(s.billing, BillingTeam, Some(team.id)))
            == multiset(s.billing)
    ensures multiset(Delete(s, team, fault).after.team) + multiset(Select(s.team, TeamId, team.id))
            == multiset(s.team)
    ensures other != team.id ==>
              && Select(Delete(s, team, fault).after.teamCar, CarTeam, other) == Select(s.teamCar, CarTeam, other)
              && Select(Delete(s, team, fault).after.teamDriver, DriverTeam, other) == Select(s.teamDriver, DriverTeam, other)
              && Select(Delete(s, team, fault).after.billing, BillingTeam, Some(other)) == Select(s.billing, BillingTeam, Some(other))
  {
    assert forall k :: 0 <= k <= 5 ==> Raised(fault, k).None?;
    assert Raised(fault, 0).None? && Raised(fault, 1).None? && Raised(fault, 2).None?;
    assert Raised(fault, 3).None? && Raised(fault, 4).None? && Raised(fault, 5).None?;
    assert Delete(s, team, fault).after
           == s.(teamCar := Reject(s.teamCar, CarTeam, team.id),
                 teamDriver := Reject(s.teamDriver, DriverTeam, team.id),
                 billing := Reject(s.billing, BillingTeam, Some(team.id)),
                 team := Reject(s.team, TeamId, team.id));
    Partition(s.teamCar, CarTeam, team.id);
    Partition(s.teamDriver, DriverTeam, team.id);
    Partition(s.billing, BillingTeam, Some(team.id));
    Partition(s.team, TeamId, team.id);
    if other != team.id {
      SelectReject(s.teamCar, CarTeam, team.id, other);
      SelectReject(s.teamDriver, DriverTeam, team.id, other);
      SelectReject(s.billing, BillingTeam, Some(team.id), Some(other));
    }
  }

  /** After a successful delete the team no longer resolves, and a team
      value kept from before the delete lists no drivers and no cars. */
  lemma DeleteThenResolve(s: Store, team: Team, fault: Option<Fault>, parse: UuidParser, id: string)
    requires Delete(s, team, fault).result.Success?
    requires parse(id) == Some(team.id)
    ensures FromId(Delete(s, team, fault).after, parse, id, None) == Failure(QueryTeamError(id))
    ensures GetDrivers(Delete(s, team, fault).after, team, None) == Success([])
    ensures GetCars(Delete(s, team, fault).after, team, None) == Success([])
  {
  }

  /** The cascading delete keeps every primary key unique, whether it
      succeeds or stops part-way. */
  lemma DeleteKeepsValid(s: Store, team: Team, fault: Option<Fault>)
    requires Valid(s)
    ensures Valid(Delete(s, team, fault).after)
  {
    var t := team.id;
    var s1 := s.(teamCar := Reject(s.teamCar, CarTeam, t));
    var s2 := s1.(teamDriver := Reject(s1.teamDriver, DriverTeam, t));
    var s3 := s2.(billing := Reject(s2.billing, BillingTeam, Some(t)));
    var s4 := s3.(team := Reject(s3.team, TeamId, t));
    RejectKeepsUnique(s.teamCar, CarId, CarTeam, t);
    RejectKeepsUnique(s.teamDriver, DriverId, DriverTeam, t);
    RejectKeepsUnique(s.billing, BillingId, BillingTeam, Some(t));
    RejectKeepsUnique(s.team, TeamId, TeamId, t);
    if Raised(fault, 0).Some? || Raised(fault, 1).Some? {
      assert Delete(s, team, fault).after == s;
    } else if Raised(fault, 2).Some? {
      assert Delete(s, team, fault).after == s1;
    } else if Raised(fault, 3).Some? {
      assert Delete(s, team, fault).after == s2;
    } else if Raised(fault, 4).Some? {
      assert Delete(s, team, fault).after == s3;
    } else {
      assert Delete(s, team, fault).after == s4;
    }
  }

  /** The delete is not all-or-nothing: when the billing delete (statement
      3) fails, the team's car and driver links are already gone while the
      team row and its billing periods remain. */
  lemma DeleteStopsPartWay(s: Store, team: Team, err: DbErr)
    ensures Delete(s, team, Some(Fault(3, err))).result == Failure(DbError(err))
    ensures !Has(Delete(s, team, Some(Fault(3, err))).after.teamCar, CarTeam, team.id)
    ensures !Has(Delete(s, team, Some(Fault(3, err))).after.teamDriver, DriverTeam, team.id)
    ensures Delete(s, team, Some(Fault(3, err))).after.team == s.team
    ensures Delete(s, team, Some(Fault(3, err))).after.billing == s.billing
  {
  }
}

=== FILE: team_service.dfy ===
/** The team aggregate (`Team` in the team service): resolving a team by its
    id string, adding and removing driver and car links, listing them, and
    the cascading delete. Every operation reads and writes the store value
    it is given and returns the store it leaves. */
module TeamService {
  import opened Wrappers
  import opened Rows
  import opened Store

  /** `TeamError`. The uuid crate's error detail is not modelled, so
      `UuidError` carries nothing. */
  datatype TeamError = QueryTeamError(teamId: string) | DbError(err: DbErr) | UuidError

  /** A resolved team. Only `FromId` produces one. */
  datatype Team = Team(id: Uuid, name: string, userId: string)

  datatype TeamUser = TeamUser(userId: string)

  datatype TeamCar = TeamCar(carId: Uuid, carPlateNumber: string)

  /** `From<DbErr> for TeamError`: a store error is kept, with its kind,
      inside `DbError`, so distinct store errors stay distinct. */
  function FromDbErr(e: DbErr): (r: TeamError)
    ensures r.DbError? && r.err == e
  {
    DbError(e)
  }

  /** The conversion loses nothing: two store errors convert alike only
      when they are the same error. */
  lemma FromDbErrInjective(a: DbErr, b: DbErr)
    ensures FromDbErr(a) == FromDbErr(b) <==> a == b
  {
  }

  /** The error the `?` operator makes of the store error a statement
      raised. */
  function Fail<T>(e: Option<DbErr>): (r: Result<T, TeamError>)
    requires e.Some?
    ensures r.Failure? && r.error == FromDbErr(e.value)
  {
    Failure(FromDbErr(e.value))
  }

  /** `Team::from_id`. Its one store statement (index 0) is the lookup by
      primary key. A malformed id, a failed lookup and a missing row all
      give `QueryTeamError` carrying the id string as it was passed in. */
  function FromId(s: Store, parse: UuidParser, id: string, fault: Option<Fault>): (r: Result<Team, TeamError>)
    ensures r.Success? <==> parse(id).Some? && Raised(fault, 0).None? && Has(s.team, TeamId, parse(id).value)
    ensures r.Success? ==> r.value.id == parse(id).value
    ensures r.Success? ==> TeamRow(r.value.id, r.value.name, r.value.userId) in s.team
    ensures r.Failure? ==> r.error == QueryTeamError(id)
  {
    match parse(id)
    case None => Failure(QueryTeamError(id))
    case Some(teamId) =>
      if Raised(fault, 0).Some? then Failure(QueryTeamError(id))
      else match IndexOf(s.team, TeamId, teamId)
        case None => Failure(QueryTeamError(id))
        case Some(i) => Success(Team(s.team[i].id, s.team[i].teamName, s.team[i].userId))
  }

  /** `Team::add_driver`: inserts the link `{newId, user_id, team_id}`
      without looking for an existing link of the same user. */
  function AddDriver(s: Store, team: Team, userId: string, newId: Uuid, fault: Option<Fault>): (r: Effect<(), TeamError>)
    ensures r.result.Success? <==> Raised(fault, 0).None? && !Has(s.teamDriver, DriverId, newId)
    ensures r.result.Success? ==> r.after == s.(teamDriver := s.teamDriver + [TeamDriverRow(newId, userId, team.id)])
    ensures r.result.Failure? ==> r.after == s && r.result.error.DbError?
  {
    match Insert(s.teamDriver, DriverId, TeamDriverRow(newId, userId, team.id), Raised(fault, 0))
    case Failure(e) => Effect(Failure(FromDbErr(e)), s)
    case Success(rows) => Effect(Success(()), s.(teamDriver := rows))
  }

  /** `Team::add_car`: inserts the link `{newId, plate, team_id}`. */
  function AddCar(s: Store, team: Team, plate: string, newId: Uuid, fault: Option<Fault>): (r: Effect<(), TeamError>)
    ensures r.result.Success? <==> Raised(fault, 0).None? && !Has(s.teamCar, CarId, newId)
    ensures r.result.Success? ==> r.after == s.(teamCar := s.teamCar + [TeamCarRow(newId, plate, team.id)])
    ensures r.result.Failure? ==> r.after == s && r.result.error.DbError?
  {
    match Insert(s.teamCar, CarId, TeamCarRow(newId, plate, team.id), Raised(fault, 0))
    case Failure(e) => Effect(Failure(FromDbErr(e)), s)
    case Success(rows) => Effect(Success(()), s.(teamCar := rows))
  }

  /** `Team::delete_driver`. Statement 0 finds the first link with this
      team and user; statement 1 deletes that row by its primary key. No
      matching link is not an error. */
  function DeleteDriver(s: Store, team: Team, userId: string, fault: Option<Fault>): (r: Effect<(), TeamError>)
    ensures Raised(fault, 0).None? && !Has(s.teamDriver, DriverLink, (team.id, userId)) ==> r == Effect(Success(()), s)
    ensures r.result.Success? <==>
              Raised(fault, 0).None? && (Has(s.teamDriver, DriverLink, (team.id, userId)) ==> Raised(fault, 1).None?)
    ensures r.result.Failure? ==> r.after == s && r.result.error.DbError?
    ensures r.after.teamDriver != s.teamDriver ==> Has(s.teamDriver, DriverLink, (team.id, userId))
    ensures r.result.Success? && Has(s.teamDriver, DriverLink, (team.id, userId)) ==>
              |r.after.teamDriver| < |s.teamDriver|
    ensures r.after == s.(teamDriver := r.after.teamDriver)
  {
    if Raised(fault, 0).Some? then Effect(Fail(Raised(fault, 0)), s)
    else match IndexOf(s.teamDriver, DriverLink, (team.id, userId))
      case None => Effect(Success(()), s)
      case Some(i) =>
        if Raised(fault, 1).Some? then Effect(Fail(Raised(fault, 1)), s)
        else Effect(Success(()), s.(teamDriver := Reject(s.teamDriver, DriverId, s.teamDriver[i].id)))
  }

  /** `Team::delete_car`. The car id is parsed before any store statement;
      a malformed id is `UuidError`. Statement 0 finds the link with this
      team and car id; statement 1 deletes it by primary key. */
  function DeleteCar(s: Store, parse: UuidParser, team: Team, carId: string, fault: Option<Fault>): (r: Effect<(), TeamError>)
    ensures parse(carId).None? ==> r == Effect(Failure(UuidError), s)
    ensures parse(carId).Some? && Raised(fault, 0).None? && !Has(s.teamCar, CarLink, (team.id, parse(carId).value))
            ==> r == Effect(Success(()), s)
    ensures r.result.Success? <==>
              parse(carId).Some? && Raised(fault, 0).None? &&
              (Has(s.teamCar, CarLink, (team.id, parse(carId).value)) ==> Raised(fault, 1).None?)
    ensures r.result.Failure? ==> r.after == s
    ensures r.after.teamCar != s.teamCar ==> parse(carId).Some? && Has(s.teamCar, CarLink, (team.id, parse(carId).value))
    ensures r.result.Success? && parse(carId).Some? ==> !Has(r.after.teamCar, CarLink, (team.id, parse(carId).value))
    ensures r.result.Success? && parse(carId).Some? ==>
              forall j :: 0 <= j < |s.teamCar| && s.teamCar[j].id != parse(carId).value ==> s.teamCar[j] in r.after.teamCar
    ensures r.after == s.(teamCar := r.after.teamCar)
  {
    match parse(carId)
    case None => Effect(Failure(UuidError), s)
    case Some(car) =>
      if Raised(fault, 0).Some? then Effect(Fail(Raised(fault, 0)), s)
      else match IndexOf(s.teamCar, CarLink, (team.id, car))
        case None => Effect(Success(()), s)
        case Some(i) =>
          if Raised(fault, 1).Some? then Effect(Fail(Raised(fault, 1)), s)
          else
            RejectKeeps(s.teamCar, CarId, car);
            Effect(Success(()), s.(teamCar := Reject(s.teamCar, CarId, s.teamCar[i].id)))
  }

  /** The loop of `get_drivers` turning each link into a `TeamUser`. */
  function Users(rows: seq<TeamDriverRow>): (r: seq<TeamUser>)
    ensures |r| == |rows|
    ensures forall i :: 0 <= i < |rows| ==> r[i].userId == rows[i].userId
  {
    if rows == [] then [] else [TeamUser(rows[0].userId)] + Users(rows[1..])
  }

  /** The loop of `get_cars` turning each link into a `TeamCar`. */
  function Cars(rows: seq<TeamCarRow>): (r: seq<TeamCar>)
    ensures |r| == |rows|
    ensures forall i :: 0 <= i < |rows| ==> r[i] == TeamCar(rows[i].id, rows[i].carPlateNumber)
  {
    if rows == [] then [] else [TeamCar(rows[0].id, rows[0].carPlateNumber)] + Cars(rows[1..])
  }

  /** `Team::get_drivers`: one statement, a scan of the links of this team. */
  function GetDrivers(s: Store, team: Team, fault: Option<Fault>): (r: Result<seq<TeamUser>, TeamError>)
    ensures r.Failure? <==> Raised(fault, 0).Some?
    ensures r.Success? ==> |r.value| == |Select(s.teamDriver, DriverTeam, team.id)|
    ensures r.Success? ==>
              forall j :: 0 <= j < |s.teamDriver| && s.teamDriver[j].teamId == team.id ==>
                TeamUser(s.teamDriver[j].userId) in r.value
    ensures r.Success? ==>
              forall i :: 0 <= i < |r.value| ==> Has(s.teamDriver, DriverLink, (team.id, r.value[i].userId))
    ensures r.Success? ==>
              forall i :: 0 <= i < |r.value| ==> r.value[i].userId == Select(s.teamDriver, DriverTeam, team.id)[i].userId
  {
    if Raised(fault, 0).Some? then Fail(Raised(fault, 0))
    else
      var rows := Select(s.teamDriver, DriverTeam, team.id);
      var users := Users(rows);
      assert forall j :: 0 <= j < |s.teamDriver| && s.teamDriver[j].teamId == team.id ==>
               TeamUser(s.teamDriver[j].userId) in users by {
        forall j | 0 <= j < |s.teamDriver| && s.teamDriver[j].teamId == team.id
          ensures TeamUser(s.teamDriver[j].userId) in users
        {
          var k :| 0 <= k < |rows| && rows[k] == s.teamDriver[j];
          assert users[k] == TeamUser(s.teamDriver[j].userId);
        }
      }
      assert forall i :: 0 <= i < |users| ==> Has(s.teamDriver, DriverLink, (team.id, users[i].userId)) by {
        forall i | 0 <= i < |users|
          ensures Has(s.teamDriver, DriverLink, (team.id, users[i].userId))
        {
          assert rows[i] in s.teamDriver;
          var j :| 0 <= j < |s.teamDriver| && s.teamDriver[j] == rows[i];
          assert DriverLink(s.teamDriver[j]) == (team.id, users[i].userId);
        }
      }
      Success(users)
  }

  /** `Team::get_cars`: one statement, a scan of the car links of this team. */
  function GetCars(s: Store, team: Team, fault: Option<Fault>): (r: Result<seq<TeamCar>, TeamError>)
    ensures r.Failure? <==> Raised(fault, 0).Some?
    ensures r.Success? ==> |r.value| == |Select(s.teamCar, CarTeam, team.id)|
    ensures r.Success? ==>
              forall j :: 0 <= j < |s.teamCar| && s.teamCar[j].teamId == team.id ==>
                TeamCar(s.teamCar[j].id, s.teamCar[j].carPlateNumber) in r.value
    ensures r.Success? ==>
              forall i :: 0 <= i < |r.value| ==> TeamCarRow(r.value[i].carId, r.value[i].carPlateNumber, team.id) in s.teamCar
    ensures r.Success? ==>
              forall i :: 0 <= i < |r.value| ==>
                r.value[i] == TeamCar(Select(s.teamCar, CarTeam, team.id)[i].id, Select(s.teamCar, CarTeam, team.id)[i].carPlateNumber)
  {
    if Raised(fault, 0).Some? then Fail(Raised(fault, 0))
    else
      var rows := Select(s.teamCar, CarTeam, team.id);
      var cars := Cars(rows);
      assert forall j :: 0 <= j < |s.teamCar| && s.teamCar[j].teamId == team.id ==>
               TeamCar(s.teamCar[j].id, s.teamCar[j].carPlateNumber) in cars by {
        forall j | 0 <= j < |s.teamCar| && s.teamCar[j].teamId == team.id
          ensures TeamCar(s.teamCar[j].id, s.teamCar[j].carPlateNumber) in cars
        {
          var k :| 0 <= k < |rows| && rows[k] == s.teamCar[j];
          assert cars[k] == TeamCar(s.teamCar[j].id, s.teamCar[j].carPlateNumber);
        }
      }
      assert forall i :: 0 <= i < |cars| ==> TeamCarRow(cars[i].carId, cars[i].carPlateNumber, team.id) in s.teamCar by {
        forall i | 0 <= i < |cars|
          ensures TeamCarRow(cars[i].carId, cars[i].carPlateNumber, team.id) in s.teamCar
        {
          assert rows[i] == TeamCarRow(cars[i].carId, cars[i].carPlateNumber, team.id);
        }
      }
      Success(cars)
  }

  /** `Team::delete`. Statement 0 opens a transaction, statements 1-4
      delete the team's car links, driver links, billing periods and the
      team row, and statement 5 commits. The four deletes are issued on the
      connection and not on the transaction, so each one takes effect on its
      own: a failure leaves the deletes before it in place. */
  function Delete(s: Store, team: Team, fault: Option<Fault>): (r: Effect<(), TeamError>)
    ensures r.result.Success? <==> forall k :: 0 <= k <= 5 ==> Raised(fault, k).None?
    ensures r.result.Success? ==> !Has(r.after.team, TeamId, team.id)
    ensures r.result.Success? ==> !Has(r.after.teamCar, CarTeam, team.id)
    ensures r.result.Success? ==> !Has(r.after.teamDriver, DriverTeam, team.id)
    ensures r.result.Success? ==> !Has(r.after.billing, BillingTeam, Some(team.id))
    ensures r.result.Success? ==>
              && (forall j :: 0 <= j < |s.teamCar| && s.teamCar[j].teamId != team.id ==> s.teamCar[j] in r.after.teamCar)
              && (forall j :: 0 <= j < |s.teamDriver| && s.teamDriver[j].teamId != team.id ==> s.teamDriver[j] in r.after.teamDriver)
              && (forall j :: 0 <= j < |s.billing| && s.billing[j].teamId != Some(team.id) ==> s.billing[j] in r.after.billing)
              && (forall j :: 0 <= j < |s.team| && s.team[j].id != team.id ==> s.team[j] in r.after.team)
    ensures r.after.billingItem == s.billingItem && r.after.user == s.user && r.after.role == s.role
    ensures r.result.Failure? ==> r.result.error.DbError?
  {
    if Raised(fault, 0).Some? then Effect(Fail(Raised(fault, 0)), s)
    else
      var s1 := s.(teamCar := Reject(s.teamCar, CarTeam, team.id));
      if Raised(fault, 1).Some? then Effect(Fail(Raised(fault, 1)), s)
      else
        var s2 := s1.(teamDriver := Reject(s1.teamDriver, DriverTeam, team.id));
        if Raised(fault, 2).Some? then Effect(Fail(Raised(fault, 2)), s1)
        else
          var s3 := s2.(billing := Reject(s2.billing, BillingTeam, Some(team.id)));
          if Raised(fault, 3).Some? then Effect(Fail(Raised(fault, 3)), s2)
          else
            var s4 := s3.(team := Reject(s3.team, TeamId, team.id));
            if Raised(fault, 4).Some? then Effect(Fail(Raised(fault, 4)), s3)
            else if Raised(fault, 5).Some? then Effect(Fail(Raised(fault, 5)), s4)
            else
              RejectKeeps(s.teamCar, CarTeam, team.id);
              RejectKeeps(s.teamDriver, DriverTeam, team.id);
              RejectKeeps(s.billing, BillingTeam, Some(team.id));
              RejectKeeps(s.team, TeamId, team.id);
              Effect(Success(()), s4)
  }
}

=== FILE: user_properties.dfy ===
/** Properties of the user aggregate across operations, and of the role
    names it prints. */
module UserProperties {
  import opened Wrappers
  import opened Rows
  import opened Store
  import opened ActiveEnums
  import opened UserService
  import RoleService

  /** Role names are distinct: the name determines the role. */
  lemma RoleNameInjective(a: RoleType, b: RoleType)
    requires RoleName(a) == RoleName(b)
    ensures a == b
  {
    RoleValueRoundTrip(a);
  }

  /** The names `get_user_role` prints are never accepted by the role
      service's parser, which expects `Admin`, `Owner`, `Driver`. */
  lemma RoleNameNotParsed(t: RoleType)
    ensures RoleService.FromStr(RoleName(t)) == Success(RoleService.None)
  {
    RoleService.FromStrCaseSensitive();
  }

  /** Printing role rows commutes with appending rows. */
  lemma {:induction false} NamesAppend(a: seq<RoleRow>, b: seq<RoleRow>)
    ensures Names(a + b) == Names(a) + Names(b)
  {
    if a == [] {
      assert a + b == b;
    } else {
      assert (a + b)[1..] == a[1..] + b;
      NamesAppend(a[1..], b);
    }
  }

  /** After a successful `create_user` the user resolves to exactly the
      aggregate that was saved, and the user's role list is the old one
      with `DRIVER` at its end. */
  lemma {:induction false} CreateUserThenRead(s: Store, user: UserAggregate, roleId: Uuid, fault: Option<Fault>)
    requires CreateUser(s, user, roleId, fault).result.Success?
    ensures FromUserId(CreateUser(s, user, roleId, fault).after, user.id, None) == Success(user)
    ensures GetUserRole(CreateUser(s, user, roleId, fault).after, user, None)
            == Success(UserAggregateRole(GetUserRole(s, user, None).value.roles + ["DRIVER"]))
  {
    var after := CreateUser(s, user, roleId, fault).after;
    var urow := UserRow(user.id, user.name, user.avatarUrl);
    assert after.user == s.user + [urow];
    assert UserId(after.user[|s.user|]) == user.id;
    var i := IndexOf(after.user, UserId, user.id).value;
    assert forall j :: 0 <= j < |s.user| ==> UserId(after.user[j]) != user.id by {
      forall j | 0 <= j < |s.user|
        ensures UserId(after.user[j]) != user.id
      {
        assert after.user[j] == s.user[j];
      }
    }
    assert i == |s.user|;
    var rrow := RoleRow(roleId, user.id, Driver);
    assert after.role == s.role + [rrow];
    SelectAppend(s.role, [rrow], RoleUser, user.id);
    assert Select([rrow], RoleUser, user.id) == [rrow];
    NamesAppend(Select(s.role, RoleUser, user.id), [rrow]);
    assert Names([rrow]) == ["DRIVER"];
  }

  /** A user created without earlier role rows holds exactly the default
      role. */
  lemma CreateUserDefaultRole(s: Store, user: UserAggregate, roleId: Uuid, fault: Option<Fault>)
    requires CreateUser(s, user, roleId, fault).result.Success?
    requires !Has(s.role, RoleUser, user.id)
    ensures GetUserRole(CreateUser(s, user, roleId, fault).after, user, None) == Success(UserAggregateRole(["DRIVER"]))
  {
    CreateUserThenRead(s, user, roleId, fault);
    assert GetUserRole(s, user, None).value.roles == [];
    assert [] + ["DRIVER"] == ["DRIVER"];
  }

  /** When the user insert succeeds and the role insert fails, the user
      row is kept and no role is added: the user is left without its
      default role. */
  lemma CreateUserRoleFails(s: Store, user: UserAggregate, roleId: Uuid, err: DbErr)
    requires !Has(s.user, UserId, user.id)
    ensures CreateUser(s, user, roleId, Some(Fault(1, err))).result == Failure(DbError)
    ensures CreateUser(s, user, roleId, Some(Fault(1, err))).after
            == s.(user := s.user + [UserRow(user.id, user.name, user.avatarUrl)])
  {
  }

  /** Creating a user keeps every primary key unique. */
  lemma CreateUserKeepsValid(s: Store, user: UserAggregate, roleId: Uuid, fault: Option<Fault>)
    requires Valid(s)
    ensures Valid(CreateUser(s, user, roleId, fault).after)
  {
    var urow := UserRow(user.id, user.name, user.avatarUrl);
    if Raised(fault, 0).None? && !Has(s.user, UserId, user.id) {
      AppendKeepsUnique(s.user, UserId, urow);
      if Raised(fault, 1).None? && !Has(s.role, RoleId, roleId) {
        AppendKeepsUnique(s.role, RoleId, RoleRow(roleId, user.id, Driver));
      }
    }
  }

  /** The conversion to `UserError` drops the store error's detail: a
      duplicate key and a backend failure become the same error. */
  lemma FromDbErrLossy(message: string)
    ensures FromDbErr(DuplicateKey) == FromDbErr(Backend(message))
    ensures forall e: DbErr :: FromDbErr(e) == DbError
  {
  }
}

=== FILE: user_service.dfy ===
/** The user aggregate: looking a user up, creating one together with its
    default role, and listing the user's roles as strings. */
module UserService {
  import opened Wrappers
  import opened Rows
  import opened Store
  import opened ActiveEnums
  import RoleService

  /** `UserError`. A store error loses its detail and becomes `DbError`. */
  datatype UserError = EmptyUserError | DbError

  /** `From<DbErr> for UserError`: every store error, whatever its kind, is
      the same `DbError`. */
  function FromDbErr(e: DbErr): (r: UserError)
    ensures r == DbError
  {
    DbError
  }

  /** `ToString for RoleType`: the upper-case name of the role, which is
      also the string the role is stored as. */
  function RoleName(t: RoleType): (v: string)
    ensures t.Admin? <==> v == "ADMIN"
    ensures t.Driver? <==> v == "DRIVER"
    ensures t.Owner? <==> v == "OWNER"
    ensures v == RoleValue(t)
    ensures RoleFromValue(v) == Some(t)
  {
    match t
    case Admin => "ADMIN"
    case Driver => "DRIVER"
    case Owner => "OWNER"
  }

  datatype UserAggregate = UserAggregate(id: string, name: string, avatarUrl: Option<string>)

  datatype UserAggregateRole = UserAggregateRole(roles: seq<string>)

  /** `UserAggregate::from_user_id`: one lookup by primary key (statement
      0). A missing row is `EmptyUserError`; a found row is copied field by
      field. */
  function FromUserId(s: Store, userId: string, fault: Option<Fault>): (r: Result<UserAggregate, UserError>)
    ensures Raised(fault, 0).Some? ==> r == Failure(DbError)
    ensures Raised(fault, 0).None? && !Has(s.user, UserId, userId) ==> r == Failure(EmptyUserError)
    ensures r.Success? <==> Raised(fault, 0).None? && Has(s.user, UserId, userId)
    ensures r.Success? ==> r.value.id == userId && UserRow(r.value.id, r.value.name, r.value.avatarUrl) in s.user
  {
    if Raised(fault, 0).Some? then Failure(FromDbErr(Raised(fault, 0).value))
    else match IndexOf(s.user, UserId, userId)
      case None => Failure(EmptyUserError)
      case Some(i) => Success(UserAggregate(s.user[i].id, s.user[i].userName, s.user[i].avatarUrl))
  }

  /** `UserAggregate::create_user`. Statement 0 inserts the user row; only
      if that succeeds is the default role saved (statement 1, with the
      generated id `roleId`). The two inserts are separate: when the role
      insert fails the user row stays without a role. */
  function CreateUser(s: Store, user: UserAggregate, roleId: Uuid, fault: Option<Fault>): (r: Effect<string, UserError>)
    ensures r.result.Failure? ==> r.result.error == DbError
    ensures r.result.Success? ==> r.result.value == user.id
    ensures r.result.Success? <==>
              Raised(fault, 0).None? && !Has(s.user, UserId, user.id) &&
              Raised(fault, 1).None? && !Has(s.role, RoleId, roleId)
    ensures r.result.Success? ==>
              r.after == s.(user := s.user + [UserRow(user.id, user.name, user.avatarUrl)],
                            role := s.role + [RoleRow(roleId, user.id, Driver)])
    ensures Raised(fault, 0).Some? || Has(s.user, UserId, user.id) ==> r.after == s
    ensures r.after.role != s.role ==> r.result.Success?
    ensures r.result.Failure? && Raised(fault, 0).None? && !Has(s.user, UserId, user.id) ==>
              r.after == s.(user := s.user + [UserRow(user.id, user.name, user.avatarUrl)])
  {
    match Insert(s.user, UserId, UserRow(user.id, user.name, user.avatarUrl), Raised(fault, 0))
    case Failure(e) => Effect(Failure(FromDbErr(e)), s)
    case Success(users) =>
      var s1 := s.(user := users);
      var role := RoleService.DefaultFromUserId(user.id, roleId);
      var saved := RoleService.Save(s1, role, Shift(fault, 1));
      match saved.result
      case Failure(e) => Effect(Failure(FromDbErr(e)), saved.after)
      case Success(_) => Effect(Success(user.id), saved.after)
  }

  /** The loop of `get_user_role` turning each role row into its name. */
  function Names(rows: seq<RoleRow>): (r: seq<string>)
    ensures |r| == |rows|
    ensures forall i :: 0 <= i < |rows| ==> r[i] == RoleName(rows[i].roleType)
  {
    if rows == [] then [] else [RoleName(rows[0].roleType)] + Names(rows[1..])
  }

  /** `UserAggregate::get_user_role`: one scan (statement 0) of the role
      rows of this user. A user without roles gets an empty list, not an
      error; a role held twice is listed twice. */
  function GetUserRole(s: Store, user: UserAggregate, fault: Option<Fault>): (r: Result<UserAggregateRole, UserError>)
    ensures r.Failure? <==> Raised(fault, 0).Some?
    ensures r.Failure? ==> r.error == DbError
    ensures r.Success? ==> |r.value.roles| == |Select(s.role, RoleUser, user.id)|
    ensures r.Success? ==> (r.value.roles == [] <==> !Has(s.role, RoleUser, user.id))
    ensures r.Success? ==>
              forall j :: 0 <= j < |s.role| && s.role[j].userId == user.id ==>
                RoleName(s.role[j].roleType) in r.value.roles
    ensures r.Success? ==>
              forall i :: 0 <= i < |r.value.roles| ==>
                r.value.roles[i] == RoleName(Select(s.role, RoleUser, user.id)[i].roleType)
  {
    if Raised(fault, 0).Some? then Failure(FromDbErr(Raised(fault, 0).value))
    else
      var rows := Select(s.role, RoleUser, user.id);
      var names := Names(rows);
      assert forall j :: 0 <= j < |s.role| && s.role[j].userId == user.id ==>
               RoleName(s.role[j].roleType) in names by {
        forall j | 0 <= j < |s.role| && s.role[j].userId == user.id
          ensures RoleName(s.role[j].roleType) in names
        {
          var k :| 0 <= k < |rows| && rows[k] == s.role[j];
          assert names[k] == RoleName(s.role[j].roleType);
        }
      }
      Success(UserAggregateRole(names))
  }
}

=== FILE: wrappers.dfy ===
/** Failure-compatible wrappers shared by every module of the model:
    `Option` for a value that may be absent (a nullable column, a lookup
    that finds no row) and `Result` for Rust's `Result<T, E>`. */
module Wrappers {

  datatype Option<+T> = None | Some(value: T)

  /** Rust's `Ok(v)` is `Success(v)` and `Err(e)` is `Failure(e)`. */
  datatype Result<+T, +E> = Success(value: T) | Failure(error: E)
}
